=== FILE: README.md ===
# cdi-properties in Dafny

A model of the two halves of cdi-properties, the Vaadin add-on that configures
components through CDI qualifier annotations.

**The generator** (`Generator.java`) scans the Vaadin component classes and writes Java source files:
- For every concrete, instantiable class it writes one properties annotation (for example `ButtonProperties`). The annotation has one member per selected bean property, plus a fixed set of custom members.
- It then writes one producer class, `ComponentProducers`, with a producer method per annotation.

**The runtime** (`ComponentConfigurator.java`, `Localizer.java`) runs when a component is injected:
- It finds the properties annotation among the qualifiers.
- It instantiates the `implementation` class.
- It passes every attribute to the setter of the same name, unless the attribute is the `IGNORED_STRING` marker.
- It runs the custom properties: size, caption key, style names and the label value key.
- Components with a localized caption are registered with the `Localizer`. When the text bundle announces an update, the `Localizer` sets every registered component's title again.

## Modules

| file | module | models |
|---|---|---|
| `wrappers.dfy` | `Wrappers` | `Option` (a Java reference that may be null) and `Result` (a computation that may throw) |
| `java_text.dfy` | `JavaText` | the order `String.compareTo` induces; `CompareTo` as the JDK computes it; the prefix and index primitives the readers use |
| `sorting.dfy` | `Sorting` | `Collections.sort` by a string key, as the sorted permutation of its input |
| `generator.dfy` | `Generator` | the property-selection rule, `getDefaultValue`, `formatType`, `formatDefaultValue`, `getCustomProperties`, `formatAnnotationClassName`, `toAnnotationMethod`, `toAnnotation`, `toProducerMethod`, `toProducer` and `main` |
| `generated_source.dfy` | `GeneratedSource` | readers for the annotation and producer text, and for member defaults; round-trip lemmas |
| `components.dfy` | `Components` | stand-ins for Vaadin components (a kind plus a trace of setter calls), the text bundle, and the escaping exceptions |
| `localizer.dfy` | `Localizer` | `addLocalizedCaption` and `updateCaption` over the caption registry |
| `configurator.dfy` | `ComponentConfigurator` | `getPropertyAnnotation`, `getPropertyValue`, `applyProperties`, the four custom properties, and `getComponent` over a session state |
| `label_value_key.dfy` | `LabelValueKeyFinding` | how the label value key meets the annotations the generator writes (see Findings) |

## How Java is represented

- **Java `null`.** Modelled as `None`. An exception that escapes to the caller is a `Failure` value, or a `thrown` field. An exception the source catches is modelled as its catch path.
- **Reflection.** It is replaced by plain data:
  - A bean property is its name, whether it has a write method, its type and its read method's default.
  - A scanned class is its names, its `instanceof` flags, whether it is concrete, and whether `newInstance()` succeeded.
  - An annotation instance is its type and its attributes, in the order reflection returns them.
- **Components.** A component is a `Kind` (`HasSize`, `HasStyle`, `HtmlComponent`, `Text` and its writable property names) plus the setter calls made on it. A component's title is the argument of its last `setTitle`.
- **Text bundle.** The `TextBundle` bean is `Option<Bundle>`, where `None` means it cannot be resolved. The bundle is a map: `getText` of an unknown key, or of the null key, is null.
- **Collection order.** The order of `HashMap` iteration and of `Instance<CustomProperty>` is whatever order the caller passes. The two `HashSet`s of the generator get an order from the model instead (see `Generator.BuildModel` below).

## Model

| member | source | states |
|---|---|---|
| `Generator.GetDefaultValue` | cdi-properties-generator/src/main/java/org/vaadin/addon/cdiproperties/Generator.java:125-139 | A missing read method throws a null dereference, and an enum without constants throws out of bounds. A declared default other than null is kept. Otherwise the fallback is non-null exactly for enum, Boolean and Double, and has the property's type: the first constant, `false` or `0.0` respectively. |
| `Generator.FormatType` | cdi-properties-generator/src/main/java/org/vaadin/addon/cdiproperties/Generator.java:179-192 | The result is a primitive keyword different from the canonical name exactly for Boolean, Integer, Float and Double. Every other type's name maps back to its canonical name. |
| `Generator.FormatDefaultValue` | cdi-properties-generator/src/main/java/org/vaadin/addon/cdiproperties/Generator.java:194-207 | null is rendered as `null`. A string is the original text between double quotes. A Float is its text followed by `f`. An enum constant without a class body is `<type>.<constant>`. A class is `<name>.class`. |
| `Generator.MemberOf` | cdi-properties-generator/src/main/java/org/vaadin/addon/cdiproperties/Generator.java:82-90 | The member exists exactly when the default can be computed. Otherwise the exception of `getDefaultValue` escapes. The member has the property's name and formatted type. A String-typed property always gets the `IGNORED_STRING` reference as its default, whatever its getter's default is. Every other type gets its formatted default. |
| `Generator.BeanMembers` | cdi-properties-generator/src/main/java/org/vaadin/addon/cdiproperties/Generator.java:71-94 | Fails exactly when some selected property's default throws, and then with the exception of the first such property in descriptor order, as the loop stops there. Otherwise every member comes from a property with a setter, a name that is not excluded and a type that is a wrapper, enum, String or Class, and every such property has its member. There is exactly one member per selected property, in descriptor order. |
| `Generator.CustomProperties` | cdi-properties-generator/src/main/java/org/vaadin/addon/cdiproperties/Generator.java:141-177 | The custom member names are always width, height, implementation, captionKey, sizeFull, sizeUndefined, localized and styleName. widthValue and heightValue are added exactly for `HtmlComponent`s, and text exactly for `Text`. The implementation member's default is the class literal. |
| `Generator.BeanMembersAvoidSizeAndStyle` | cdi-properties-generator/src/main/java/org/vaadin/addon/cdiproperties/Generator.java:44-46 | No bean-derived member is named width, height or styleName, so none collides with the custom members of those names. |
| `Generator.AnnotationClassNames` | cdi-properties-generator/src/main/java/org/vaadin/addon/cdiproperties/Generator.java:304-307 | The annotation name is exactly `Properties` for `HtmlComponent`. For any other class it is the simple name followed by `Properties`, so different simple names give different annotations. |
| `Generator.BuildModel` | cdi-properties-generator/src/main/java/org/vaadin/addon/cdiproperties/Generator.java:65-98 | The model of a class is built exactly when its bean members are, and it belongs to that class. Its members are the bean members in descriptor order, followed by the custom members of the class. |
| `Generator.ModelMemberNames` | cdi-properties-generator/src/main/java/org/vaadin/addon/cdiproperties/Generator.java:71-98 | A generated annotation has members for exactly the selected bean properties plus the custom members of its class. |
| `Generator.ScanClasses` | cdi-properties-generator/src/main/java/org/vaadin/addon/cdiproperties/Generator.java:57-114 | The scan ends without an exception exactly when every concrete, instantiable, non-excluded class builds. It then holds as many models as there are such classes, and the model of each such class is among them. Otherwise it stops at the first such class that does not build. That class's exception is the scan's, and each generated class before it has its own model, in scan order. |
| `Generator.ScanModelsBuilt` | cdi-properties-generator/src/main/java/org/vaadin/addon/cdiproperties/Generator.java:57-114 | Every model of the scan is what `BuildModel` yields for some scanned class that is concrete, instantiable and not excluded. |
| `Generator.ScanModelsInOrder` | cdi-properties-generator/src/main/java/org/vaadin/addon/cdiproperties/Generator.java:57-114 | After a complete scan, the model of the generated class at scan position `i` sits at the position that counts the generated classes before `i`: one model per generated class, in scan order. |
| `Generator.BeanMemberNames` | cdi-properties-generator/src/main/java/org/vaadin/addon/cdiproperties/Generator.java:71-94 | The bean members of a model are named after exactly the bean properties the selection rule keeps. |
| `Generator.ScanFilesGenerated` | cdi-properties-generator/src/main/java/org/vaadin/addon/cdiproperties/Generator.java:100-106 | Each annotation file of a scan is `<dir>/<annotation name>.java` for some class the generator generates for. |
| `Generator.Main` | cdi-properties-generator/src/main/java/org/vaadin/addon/cdiproperties/Generator.java:53-123 | An exception in the scan escapes `main`. The files written are the annotation file of each model the scan built, in order: path `<args[0]>/<annotation name>.java`, holding `toAnnotation` of that model. After a complete scan they are followed by `<args[1]>/ComponentProducers.java`, holding `toProducer` of all the models. |
| `Generator.MainCompletes` | cdi-properties-generator/src/main/java/org/vaadin/addon/cdiproperties/Generator.java:53-123 | `main` ends without an exception exactly when every generated class builds. It then writes one file per generated class, plus the producer file `<args[1]>/ComponentProducers.java` last. |
| `Generator.MainStops` | cdi-properties-generator/src/main/java/org/vaadin/addon/cdiproperties/Generator.java:57-109 | An exception ends `main` at the first generated class whose model cannot be built, and it is that class's exception. Each generated class ahead of it has its own annotation file, in scan order, and no other file was written. |
| `Generator.MainPathsGenerated` | cdi-properties-generator/src/main/java/org/vaadin/addon/cdiproperties/Generator.java:100-106 | Every annotation file `main` writes, including those written before an exception, has the annotation path of a class it generates for. |
| `Generator.MainFilePerClass` | cdi-properties-generator/src/main/java/org/vaadin/addon/cdiproperties/Generator.java:57-114 | After a run without an exception, each generated class has its own annotation file, at the position that counts the generated classes before it. |
| `GeneratedSource.DeclarationRoundTrip` | cdi-properties-generator/src/main/java/org/vaadin/addon/cdiproperties/Generator.java:338-344 | The declaration line `toAnnotationMethod` writes is one line, and a reader recovers the member's type, name and default from it. |
| `GeneratedSource.MembersRoundTrip` | cdi-properties-generator/src/main/java/org/vaadin/addon/cdiproperties/Generator.java:295-300 | The member block followed by the closing text reads back as exactly the members written, in order. |
| `GeneratedSource.AnnotationRoundTrip` | cdi-properties-generator/src/main/java/org/vaadin/addon/cdiproperties/Generator.java:275-302 | `toAnnotation` declares the annotation that `formatAnnotationClassName` names, with exactly the model's members in ascending name order. |
| `GeneratedSource.ProducerMethodsRoundTrip` | cdi-properties-generator/src/main/java/org/vaadin/addon/cdiproperties/Generator.java:309-323 | A run of producer methods reads back, in order, as the annotation name and the signature line of each model. Each method produces its own model's component type for that model's annotation. |
| `GeneratedSource.ProducerRoundTrip` | cdi-properties-generator/src/main/java/org/vaadin/addon/cdiproperties/Generator.java:209-239 | `toProducer` has exactly one producer method per model, in ascending order of simple class name. Each method's annotation and signature line read back. |
| `GeneratedSource.DefaultRoundTrip` | cdi-properties-generator/src/main/java/org/vaadin/addon/cdiproperties/Generator.java:194-207 | A rendered default of a member type reads back as the value it was rendered from. Rendering loses nothing. |
| `Sorting.SortBy` | cdi-properties-generator/src/main/java/org/vaadin/addon/cdiproperties/Generator.java:287-294 | The sort result is ordered by `compareTo` of the key and is a permutation of its input. |
| `Sorting.SortByStable` | cdi-properties-generator/src/main/java/org/vaadin/addon/cdiproperties/Generator.java:287-294 | The sort is stable, as `Collections.sort` is. For every key, the elements with that key keep their input order. |
| `Sorting.SortedUnique` | cdi-properties-generator/src/main/java/org/vaadin/addon/cdiproperties/Generator.java:225-232 | With distinct keys there is only one sorted permutation, so the emitted order does not depend on the set's iteration order. |
| `JavaText.CompareTo` | cdi-properties-generator/src/main/java/org/vaadin/addon/cdiproperties/Generator.java:288-292 | `compareTo` is at most 0 exactly when its first argument is ordered first, and 0 exactly for equal strings. |
| `ComponentConfigurator.GetPropertyAnnotation` | cdi-properties/src/main/java/org/vaadin/addon/cdiproperties/ComponentConfigurator.java:37-47 | The result is null exactly when no qualifier has the requested type. Otherwise it is the first qualifier that has it. |
| `ComponentConfigurator.GetPropertyValue` | cdi-properties/src/main/java/org/vaadin/addon/cdiproperties/ComponentConfigurator.java:49-58 | The result is null exactly when the annotation has no attribute of that name. Otherwise it is that attribute's value. |
| `ComponentConfigurator.Dispatch` | cdi-properties/src/main/java/org/vaadin/addon/cdiproperties/ComponentConfigurator.java:68-77 | Every call passes a non-ignored attribute to the setter of its own name. Every attribute that has a setter and is not the marker gets its call. There is at most one call per attribute. |
| `ComponentConfigurator.DispatchConcat` | cdi-properties/src/main/java/org/vaadin/addon/cdiproperties/ComponentConfigurator.java:68-77 | Attributes are handled one at a time. One without a setter is skipped, and the later ones are still applied. |
| `ComponentConfigurator.DispatchSingle` | cdi-properties/src/main/java/org/vaadin/addon/cdiproperties/ComponentConfigurator.java:70-73 | A single attribute causes a call exactly when it has a setter and is not `IGNORED_STRING`. |
| `ComponentConfigurator.ApplyProperties` | cdi-properties/src/main/java/org/vaadin/addon/cdiproperties/ComponentConfigurator.java:60-82 | `applyProperties` appends only setter calls for writable properties, each with the value of an attribute of that name and never the marker. Every attribute that has a setter and is not the marker gets its call. Nothing else changes. |
| `ComponentConfigurator.AsString` | cdi-properties/src/main/java/org/vaadin/addon/cdiproperties/ComponentConfigurator.java:154 | The `(String)` cast fails exactly for a non-null value that is not a string. null stays null. |
| `ComponentConfigurator.AsBoolean` | cdi-properties/src/main/java/org/vaadin/addon/cdiproperties/ComponentConfigurator.java:116-117 | The `(Boolean)` cast fails exactly for a non-null value that is not a boolean. |
| `ComponentConfigurator.AsStrings` | cdi-properties/src/main/java/org/vaadin/addon/cdiproperties/ComponentConfigurator.java:180 | The `(String[])` cast fails exactly for a non-null value that is not a string array. |
| `ComponentConfigurator.ExplicitSize` | cdi-properties/src/main/java/org/vaadin/addon/cdiproperties/ComponentConfigurator.java:126-135 | A failed `(String)` cast of height throws before any call. A height that is not the marker is the first call, `setHeight` with that value. A width that is not the marker is the last call, `setWidth` with that value. A failed width cast throws after the height call. Marker values are never passed. |
| `ComponentConfigurator.ApplySize` | cdi-properties/src/main/java/org/vaadin/addon/cdiproperties/ComponentConfigurator.java:115-137 | Both flags are cast first, and a failed cast throws before any call. A component that is not `HasSize` is then left alone. sizeFull true gives exactly `setSizeFull`. Otherwise sizeUndefined true gives exactly `setSizeUndefined`. A null flag in that order throws a null dereference, and only then. Two false flags give the explicit height and width. |
| `ComponentConfigurator.ApplyCaptionKey` | cdi-properties/src/main/java/org/vaadin/addon/cdiproperties/ComponentConfigurator.java:153-169 | Both casts happen first, and a failed cast throws before any call. The marker key does nothing. A key that is not the marker fails the `HtmlComponent` cast on any other component. Without a bundle an `HtmlComponent`'s title becomes the fallback message. With a bundle it becomes the bundle's text for the key. The component is then registered exactly when `localized` is true, and a null `localized` throws after the title is set. |
| `ComponentConfigurator.ApplyStyleName` | cdi-properties/src/main/java/org/vaadin/addon/cdiproperties/ComponentConfigurator.java:179-185 | There is one `setClassName` per array entry, in array order, and none for an empty array. A null array throws a null dereference. A value that is not a string array fails the `(String[])` cast. A non-empty array on a component that is not `HasStyle` fails the cast. Both happen before any call. |
| `ComponentConfigurator.LabelValueKeyFrom` | cdi-properties/src/main/java/org/vaadin/addon/cdiproperties/ComponentConfigurator.java:200-214 | The marker key does nothing, and a failed key cast throws before any call. Any other key fails the `Text` cast on a component that is not a `Text`. On a `Text` without a bundle, the text becomes the fallback message and nothing else happens. With a bundle, the text becomes the bundle's text for the key. Then a failed `localized` cast throws, a null `localized` throws a null dereference, and `false` ends without registering. `true` registers an `HtmlComponent` under the key and fails the cast on any other component. |
| `ComponentConfigurator.ApplyLabelValueKeyAsWritten` | cdi-properties/src/main/java/org/vaadin/addon/cdiproperties/ComponentConfigurator.java:201-204 | Read from `valueKey`: without such an attribute, the text of a `Text` is always replaced by the text for the null key. |
| `ComponentConfigurator.ApplyLabelValueKey` | cdi-properties/src/main/java/org/vaadin/addon/cdiproperties/ComponentConfigurator.java:200-214 | Read from `text`: the marker leaves the component alone, and any other key sets the bundle's text for that key. |
| `ComponentConfigurator.EffectRegistersHtmlOnly` | cdi-properties/src/main/java/org/vaadin/addon/cdiproperties/ComponentConfigurator.java:159-161 | Only the caption key and the label value key register a component, only an `HtmlComponent`, and never together with an exception. |
| `ComponentConfigurator.ApplyCustomProperties` | cdi-properties/src/main/java/org/vaadin/addon/cdiproperties/ComponentConfigurator.java:96-102 | Earlier calls are kept. The registry changes only at this component, and only if it is an `HtmlComponent`. If no custom property applies, nothing changes. |
| `ComponentConfigurator.ApplyCustomPropertiesSingle` | cdi-properties/src/main/java/org/vaadin/addon/cdiproperties/ComponentConfigurator.java:98-101 | A custom property that does not apply changes nothing. One that applies makes its calls, records its registration, and its exception becomes the loop's. |
| `ComponentConfigurator.ApplyCustomPropertiesConcat` | cdi-properties/src/main/java/org/vaadin/addon/cdiproperties/ComponentConfigurator.java:96-102 | The custom properties run in order. After a run of them that throws nothing, the next ones continue from the component and registry it left. Once one throws, none of the later ones runs. |
| `ComponentConfigurator.ImplementationKind` | cdi-properties/src/main/java/org/vaadin/addon/cdiproperties/ComponentConfigurator.java:87-90 | Instantiation succeeds exactly when the annotation exists and names a creatable class. A missing annotation or a missing `implementation` is a null dereference. A value that is not a class fails the cast. A class that cannot be created fails `newInstance`. |
| `ComponentConfigurator.GetComponent` | cdi-properties/src/main/java/org/vaadin/addon/cdiproperties/ComponentConfigurator.java:84-105 | A failure before instantiation changes nothing. Otherwise exactly one new component of the named class is added and no other component changes. The registry changes only at the new component. The new component and the registry are what the custom-property loop leaves, starting from the component after `applyProperties`. An exception of that loop escapes, and otherwise the new component is returned. |
| `ComponentConfigurator.GetComponentSetters` | cdi-properties/src/main/java/org/vaadin/addon/cdiproperties/ComponentConfigurator.java:92-102 | A produced component's calls begin with exactly the `applyProperties` calls for its annotation, before any custom property acts. |
| `ComponentConfigurator.GetComponentValid` | cdi-properties/src/main/java/org/vaadin/addon/cdiproperties/ComponentConfigurator.java:84-105 | The registry holds only existing `HtmlComponent`s, and `getComponent` keeps it that way. |
| `ComponentConfigurator.InitialSessionValid` | cdi-properties/src/main/java/org/vaadin/addon/cdiproperties/Localizer.java:28 | The session before any component is produced, with an empty caption registry, is consistent. |
| `ComponentConfigurator.BundleUpdated` | cdi-properties/src/main/java/org/vaadin/addon/cdiproperties/Localizer.java:30-38 | A bundle update changes no registration and no unregistered component. |
| `ComponentConfigurator.BundleUpdatedValid` | cdi-properties/src/main/java/org/vaadin/addon/cdiproperties/Localizer.java:30-38 | A bundle update keeps the session consistent. |
| `Localizer.AddLocalizedCaption` | cdi-properties/src/main/java/org/vaadin/addon/cdiproperties/Localizer.java:41-43 | The component is mapped to the key, overwriting any earlier key, and every other entry is unchanged. |
| `Localizer.UpdateCaption` | cdi-properties/src/main/java/org/vaadin/addon/cdiproperties/Localizer.java:30-39 | Each registered component gets exactly one more `setTitle`, with the bundle text for its key, and keeps its kind. Unregistered components are untouched. |
| `Localizer.UpdateCaptionTitles` | cdi-properties/src/main/java/org/vaadin/addon/cdiproperties/Localizer.java:31-34 | After an update, every registered component's title is the bundle text for its key. Every other title is unchanged. |
| `Localizer.UpdateWithoutBundle` | cdi-properties/src/main/java/org/vaadin/addon/cdiproperties/Localizer.java:35-36 | Without a bundle, every registered component's title is `No TextBundle implementation found!`. |
| `Localizer.UpdateCaptionIdempotent` | cdi-properties/src/main/java/org/vaadin/addon/cdiproperties/Localizer.java:30-39 | A second update with the same bundle leaves the same titles. |
| `Localizer.AddThenUpdate` | cdi-properties/src/main/java/org/vaadin/addon/cdiproperties/Localizer.java:41-43 | After re-registering, an update shows the text of the latest key. |
| `Components.LastTitle` | cdi-properties/src/main/java/org/vaadin/addon/cdiproperties/Localizer.java:34 | There is no title exactly when no `setTitle` call was made. |
| `Components.LastTitleIsLast` | cdi-properties/src/main/java/org/vaadin/addon/cdiproperties/Localizer.java:34 | When a title was set, it is the argument of a `setTitle` call after which no other title was set. |
| `LabelValueKeyFinding.CustomNamesOfText` | cdi-properties-generator/src/main/java/org/vaadin/addon/cdiproperties/Generator.java:153-174 | A `Text` component's custom members include `text` and not `valueKey`. |
| `LabelValueKeyFinding.GeneratedTextAnnotation` | cdi-properties-generator/src/main/java/org/vaadin/addon/cdiproperties/Generator.java:171-174 | An instance of a generated `Text` annotation has a `text` attribute and no `valueKey` attribute. |
| `LabelValueKeyFinding.AsWrittenIgnoresText` | cdi-properties/src/main/java/org/vaadin/addon/cdiproperties/ComponentConfigurator.java:201-204 | As written, a generated `Text` annotation always gets its text replaced, whatever its `text` attribute says. |
| `LabelValueKeyFinding.IgnoredTextCounterexample` | cdi-properties/src/main/java/org/vaadin/addon/cdiproperties/ComponentConfigurator.java:201-202 | With `text` at the marker and no bundle, the as-written code sets the fallback message. Reading `text` makes no call. |
| `LabelValueKeyFinding.BundleKeyCounterexample` | cdi-properties/src/main/java/org/vaadin/addon/cdiproperties/ComponentConfigurator.java:201-204 | With `text = "greeting"` and a bundle, the as-written code looks up the null key. Reading `text` looks up `greeting`. |
| `LabelValueKeyFinding.AsWrittenLocalizedTextThrows` | cdi-properties/src/main/java/org/vaadin/addon/cdiproperties/ComponentConfigurator.java:205-208 | With `localized` at its generated default `true` and a bundle, a `Text` that is no `HtmlComponent` fails the registration cast. |

## Left out

- **Reflection, scanning and instantiation.** The classpath scan, `Introspector`, `Method.invoke` and `newInstance` rely on libraries outside this code. The scanned classes, bean properties, annotation attributes and the creatable classes (`catalog`) are inputs instead.
- **I/O.** File writing and `printStackTrace` are I/O. A written file is a path and content pair.
- **Write failures.** An `IOException` while writing is not modelled. Writing always succeeds.
- **CDI.** Injection, scopes and event delivery are not modelled. The `Localizer` is assumed always resolvable. Only the text bundle's availability is an input.
- **Setter failures.** A setter that throws, or an argument of the wrong type, is caught and ignored by `applyProperties`. The model records the call either way.
- **Extra annotation methods.** The methods every annotation proxy also has (`toString`, `hashCode`, `annotationType`) name no writable bean property, so they are not listed as attributes.
- **`isAssignableFrom`.** The check is modelled as equality of annotation types. Annotation types cannot extend each other, and the producers always ask for a concrete properties annotation.
- **Character order.** Characters are compared as Dafny `char`s, which are Unicode scalar values. Java compares UTF-16 code units, which differs only for characters outside the Basic Multilingual Plane.
- **Component set identity.** `ComponentProperty` and `ComponentModel` are stored in `HashSet`s without `equals`, so duplicates are kept. The model uses sequences.
- **Numbers.** Float and double values are their rendered text. `widthValue`/`heightValue` defaults come from `getWidth()`/`getHeight()` of a live instance and are inputs.
- **Command line.** A missing `args[0]` or `args[1]` is not modelled.
- **Throwing bundles.** A `TextBundle` whose `getText` throws is not modelled.
- `Generator.Main`: a written file's content is what it renders (`AnnotationOf` a model or `ProducersOf` the models), and `Generator.Text` turns that into the source text by `ToAnnotation` or `ToProducer`. The text of every file is not expanded into one equality over the whole run, because that proof is too costly.
- `ComponentConfigurator.GetComponent`: runs the corrected label value key, read from `text` (see Findings), and not lines 201-207 as written. For a `Text` component the two differ. As written, the `text` marker does not stop the call. The null key is looked up instead of the given one. With `localized` true and a bundle, the registration cast then throws. `ComponentConfigurator.ApplyLabelValueKeyAsWritten` and the `LabelValueKeyFinding` lemmas describe the as-written behaviour.
- `Generator.FormatDefaultValue`: an enum constant with a constant-specific class body is rendered as `<type>.<constant>`. Java instead renders it with `String.valueOf`, because its class is an anonymous subclass for which `isEnum()` is false. Values do not record whether a constant has a class body, because that is a fact about the constant's runtime class, and the inputs describe only the property types.
- `Generator.BuildModel`: a model's properties are a `HashSet` of objects without `equals`, so Java iterates them in no fixed order. The model fixes that order to the bean members followed by the custom members. The sort is stable, so this choice shows for members of equal name, such as the bean and the custom `text` of a `Text` annotation. The same holds for the set of models passed to `toProducer` when two classes share a simple name.
- `Generator.CustomProperties`: states the member names and the implementation member, but not every custom member's type and default.
- `GeneratedSource.AnnotationRoundTrip`: needs class names without blanks, type names without blanks and member names without `(`, as Java identifiers are. No line breaks may appear in names, types or defaults.

## Findings

| source | as written | input that shows it | evidently intended | confidence | as-written member | corrected member |
|---|---|---|---|---|---|---|
| cdi-properties/src/main/java/org/vaadin/addon/cdiproperties/ComponentConfigurator.java:201 | The label value key is read from the attribute `valueKey`, but the generator declares it as `text` (Generator.java:171-174). Every generated annotation lacks `valueKey`, so the ignore check never holds. | A `Text` component, `text` left at `IGNORED_STRING`, no bundle: the text becomes `No TextBundle implementation found!`. With `text = "greeting"` and a bundle, the null key is looked up. | Read the key from the member the generator declares, so the marker leaves the text alone and any other key is looked up. | high, not executed | `ComponentConfigurator.ApplyLabelValueKeyAsWritten` | `ComponentConfigurator.ApplyLabelValueKey` |

Also proved, but not listed as a finding because the intended behaviour is unclear: the generator makes `localized` default to `true`. The label value key registers a `Text` component by casting it to `HtmlComponent`, which a Vaadin `Text` is not. So with a bundle available, that cast fails (`LabelValueKeyFinding.AsWrittenLocalizedTextThrows`).

=== FILE: components.dfy ===
/** Stand-ins for the Vaadin and CDI objects the runtime works on. A
    component is its kind (which Vaadin types it is an instance of, and which
    bean properties have setters) plus the trace of setter calls made on it;
    what Vaadin does inside a setter is not modelled. A text bundle is a map
    from key to text. */
module Components {
  import opened Wrappers

  /** Identity of a component instance: Java compares components by reference. */
  type ComponentId = nat

  /** A `String` reference; `None` is Java `null`. */
  type JString = Option<string>

  /** What a component class is an instance of, as `instanceof` sees it, and
      the names of its bean properties that have a write method. */
  datatype Kind = Kind(
    className: string,
    hasSize: bool,
    hasStyle: bool,
    isHtmlComponent: bool,
    isText: bool,
    setters: set<string>)

  /** A value an annotation attribute returns. */
  datatype AttrValue =
    | VStr(s: string)
    | VBool(b: bool)
    | VStrs(strs: seq<string>)
    | VClass(className: string)
    | VOther(rendered: string)

  /** One setter call on a component. */
  datatype Call =
    | SetProperty(property: string, value: AttrValue)
    | SetSizeFull
    | SetSizeUndefined
    | SetHeight(height: JString)
    | SetWidth(width: JString)
    | SetTitle(title: JString)
    | SetClassName(styleName: string)
    | SetText(text: JString)

  datatype Component = Component(kind: Kind, calls: seq<Call>)

  /** The component after the further calls `more`. */
  function Then(c: Component, more: seq<Call>): (r: Component)
    ensures r.kind == c.kind
    ensures |r.calls| == |c.calls| + |more|
    ensures r.calls[..|c.calls|] == c.calls && r.calls[|c.calls|..] == more
  {
    Component(c.kind, c.calls + more)
  }

  /** The argument of the last `setTitle` in a trace, if any was made. */
  function LastTitle(calls: seq<Call>): (r: Option<JString>)
    ensures r.None? <==> forall i :: 0 <= i < |calls| ==> !calls[i].SetTitle?
  {
    if |calls| == 0 then None
    else if calls[|calls| - 1].SetTitle? then Some(calls[|calls| - 1].title)
    else
      var init := calls[..|calls| - 1];
      assert forall i :: 0 <= i < |init| ==> init[i] == calls[i];
      LastTitle(init)
  }

  /** A title is the argument of a `setTitle` after which no title was set. */
  lemma {:induction false} LastTitleIsLast(calls: seq<Call>)
    requires LastTitle(calls).Some?
    ensures exists i :: 0 <= i < |calls| && calls[i] == SetTitle(LastTitle(calls).value) && IsLastTitle(calls, i)
  {
    var n := |calls| - 1;
    if calls[n].SetTitle? {
      assert calls[n] == SetTitle(LastTitle(calls).value) && IsLastTitle(calls, n);
    } else {
      var init := calls[..n];
      LastTitleIsLast(init);
      var i :| 0 <= i < |init| && init[i] == SetTitle(LastTitle(init).value) && IsLastTitle(init, i);
      assert calls[i] == init[i];
      assert IsLastTitle(calls, i);
    }
  }

  /** No title is set after the call at `i`. */
  predicate IsLastTitle(calls: seq<Call>, i: nat)
  {
    forall j :: i < j < |calls| ==> !calls[j].SetTitle?
  }

  /** The title a component shows: the last one set. */
  function Title(c: Component): Option<JString>
  {
    LastTitle(c.calls)
  }

  lemma TitleAfterSetTitle(c: Component, t: JString)
    ensures Title(Then(c, [SetTitle(t)])) == Some(t)
  {
  }

  /** A `TextBundle` implementation: `getText` looks the key up and yields
      null for a key it does not know, and for the null key. */
  type Bundle = map<string, string>

  function GetText(b: Bundle, key: JString): (r: JString)
    ensures r.Some? <==> key.Some? && key.value in b
    ensures r.Some? ==> r.value == b[key.value]
  {
    if key.Some? && key.value in b then Some(b[key.value]) else None
  }

  /** The title or text a component gets when no `TextBundle` bean exists. */
  const NoBundleMessage := "No TextBundle implementation found!"

  /** What the runtime shows for `key`: the bundle's text when a bundle is
      available (`None` when it cannot be resolved), the fixed message otherwise. */
  function BundleText(bundle: Option<Bundle>, key: JString): (r: JString)
    ensures bundle.None? ==> r == Some(NoBundleMessage)
    ensures bundle.Some? ==> r == GetText(bundle.value, key)
  {
    match bundle
    case None => Some(NoBundleMessage)
    case Some(b) => GetText(b, key)
  }

  /** Exceptions that escape from the runtime to its caller. */
  datatype Thrown = NullPointer | ClassCast | Instantiation
}

=== FILE: configurator.dfy ===
/** `ComponentConfigurator.java`: how a component producer turns the
    properties annotation at an injection point into a configured component.
    The annotation's attributes become setter calls, except those set to the
    ignore marker, and then each custom property that applies to the
    component does its own piece of configuration. */
module ComponentConfigurator {
  import opened Wrappers
  import opened Components
  import opened Localizer

  /** `IGNORED_STRING`: an attribute with this value is left alone. */
  const IgnoredString := "CDI_PROPERTIES_IGNORE"

  datatype Attribute = Attribute(name: string, value: AttrValue)

  /** An annotation instance: its type and its attributes, in the order
      reflection lists its methods. */
  datatype Annotation = Annotation(annotationType: string, attributes: seq<Attribute>)

  /** Attribute values that the ignore check suppresses: only the marker
      string itself equals `IGNORED_STRING`. */
  predicate Ignored(v: AttrValue)
  {
    v == VStr(IgnoredString)
  }

  /** `getPropertyAnnotation`: the first qualifier of the requested
      annotation type, or null. */
  function GetPropertyAnnotation(qualifiers: seq<Annotation>, annotationType: string): (r: Option<Annotation>)
    ensures r.None? <==> forall i :: 0 <= i < |qualifiers| ==> qualifiers[i].annotationType != annotationType
    ensures r.Some? ==>
      exists i :: (0 <= i < |qualifiers| && qualifiers[i] == r.value && r.value.annotationType == annotationType
                   && forall j :: 0 <= j < i ==> qualifiers[j].annotationType != annotationType)
  {
    if |qualifiers| == 0 then None
    else if qualifiers[0].annotationType == annotationType then Some(qualifiers[0])
    else
      var r := GetPropertyAnnotation(qualifiers[1..], annotationType);
      assert forall i :: 1 <= i < |qualifiers| ==> qualifiers[1..][i - 1] == qualifiers[i];
      r
  }

  /** `getPropertyValue` on an annotation: the value of the named attribute,
      or null when the annotation has no such attribute. */
  function GetPropertyValue(attrs: seq<Attribute>, name: string): (r: Option<AttrValue>)
    ensures r.None? <==> forall i :: 0 <= i < |attrs| ==> attrs[i].name != name
    ensures r.Some? ==>
      exists i :: (0 <= i < |attrs| && attrs[i] == Attribute(name, r.value)
                   && forall j :: 0 <= j < i ==> attrs[j].name != name)
  {
    if |attrs| == 0 then None
    else if attrs[0].name == name then Some(attrs[0].value)
    else
      var r := GetPropertyValue(attrs[1..], name);
      assert forall i :: 1 <= i < |attrs| ==> attrs[1..][i - 1] == attrs[i];
      r
  }

  function Get(a: Annotation, name: string): Option<AttrValue>
  {
    GetPropertyValue(a.attributes, name)
  }

  /** The setter calls `applyProperties` makes for `attrs` on a component
      whose writable properties are `setters`, in attribute order. */
  function Dispatch(attrs: seq<Attribute>, setters: set<string>): (r: seq<Call>)
    ensures |r| <= |attrs|
    ensures forall i :: 0 <= i < |r| ==>
      r[i].SetProperty? && r[i].property in setters && !Ignored(r[i].value)
      && Attribute(r[i].property, r[i].value) in attrs
    ensures forall at :: at in attrs && at.name in setters && !Ignored(at.value) ==>
      SetProperty(at.name, at.value) in r
  {
    if |attrs| == 0 then []
    else
      var at := attrs[0];
      var rest := Dispatch(attrs[1..], setters);
      assert forall x :: x in attrs[1..] ==> x in attrs;
      assert forall x :: x in attrs ==> x == at || x in attrs[1..];
      if at.name in setters && !Ignored(at.value) then [SetProperty(at.name, at.value)] + rest else rest
  }

  /** The attributes are handled one by one: what an attribute causes does
      not depend on the attributes before it, so one without a setter is
      skipped and the later ones are still applied. */
  lemma {:induction false} DispatchConcat(a: seq<Attribute>, b: seq<Attribute>, setters: set<string>)
    ensures Dispatch(a + b, setters) == Dispatch(a, setters) + Dispatch(b, setters)
  {
    if |a| > 0 {
      assert (a + b)[1..] == a[1..] + b;
      DispatchConcat(a[1..], b, setters);
    } else {
      assert a + b == b;
    }
  }

  /** A lone attribute causes one setter call exactly when the component has
      a setter for it and its value is not the ignore marker. */
  lemma DispatchSingle(at: Attribute, setters: set<string>)
    ensures Dispatch([at], setters) ==
      (if at.name in setters && !Ignored(at.value) then [SetProperty(at.name, at.value)] else [])
  {
    assert [at][1..] == [];
  }

  /** `applyProperties`: the component after the setter calls for the
      annotation's attributes. */
  function ApplyProperties(c: Component, a: Annotation): (r: Component)
    ensures r.kind == c.kind
    ensures |c.calls| <= |r.calls| && r.calls[..|c.calls|] == c.calls
    ensures forall i :: |c.calls| <= i < |r.calls| ==>
      r.calls[i].SetProperty? && r.calls[i].property in c.kind.setters && !Ignored(r.calls[i].value)
      && Attribute(r.calls[i].property, r.calls[i].value) in a.attributes
    ensures forall at :: at in a.attributes && at.name in c.kind.setters && !Ignored(at.value) ==>
      SetProperty(at.name, at.value) in r.calls[|c.calls|..]
  {
    Then(c, Dispatch(a.attributes, c.kind.setters))
  }

  // ---- Casts of attribute values, as the custom properties perform them.

  /** `(String) value`. */
  function AsString(v: Option<AttrValue>): (r: Result<JString, Thrown>)
    ensures r.Failure? <==> v.Some? && !v.value.VStr?
    ensures r.Success? && r.value.Some? ==> v == Some(VStr(r.value.value))
    ensures r.Success? && r.value.None? ==> v.None?
  {
    match v
    case None => Success(None)
    case Some(VStr(s)) => Success(Some(s))
    case Some(_) => Failure(ClassCast)
  }

  /** `(Boolean) value`. */
  function AsBoolean(v: Option<AttrValue>): (r: Result<Option<bool>, Thrown>)
    ensures r.Failure? <==> v.Some? && !v.value.VBool?
    ensures r.Success? && r.value.Some? ==> v == Some(VBool(r.value.value))
    ensures r.Success? && r.value.None? ==> v.None?
  {
    match v
    case None => Success(None)
    case Some(VBool(b)) => Success(Some(b))
    case Some(_) => Failure(ClassCast)
  }

  /** `(String[]) value`. */
  function AsStrings(v: Option<AttrValue>): (r: Result<Option<seq<string>>, Thrown>)
    ensures r.Failure? <==> v.Some? && !v.value.VStrs?
    ensures r.Success? && r.value.Some? ==> v == Some(VStrs(r.value.value))
    ensures r.Success? && r.value.None? ==> v.None?
  {
    match v
    case None => Success(None)
    case Some(VStrs(ss)) => Success(Some(ss))
    case Some(_) => Failure(ClassCast)
  }

  /** `IGNORED_STRING.equals(s)` for a cast string. */
  predicate IsIgnored(s: JString)
  {
    s == Some(IgnoredString)
  }

  /** The key cast from attribute `name` succeeds and is not the ignore
      marker, so the custom property reading it goes to work. */
  predicate LiveKey(a: Annotation, name: string)
  {
    AsString(Get(a, name)).Success? && !IsIgnored(AsString(Get(a, name)).value)
  }

  // ---- Custom properties.

  datatype CustomProperty = Size | CaptionKey | StyleName | LabelValueKey

  /** `appliesTo`: every custom property applies to every component except
      the label value key, which applies to `Text` components only. */
  predicate AppliesTo(p: CustomProperty, k: Kind)
  {
    p.LabelValueKey? ==> k.isText
  }

  /** What one custom property does: the calls it makes on the component, the
      key it registers the component with at the localizer (if any), and the
      exception it ends with (if any). */
  datatype Effect = Effect(calls: seq<Call>, register: Option<JString>, thrown: Option<Thrown>)

  const NoEffect := Effect([], None, None)

  function Throws(calls: seq<Call>, e: Thrown): Effect
  {
    Effect(calls, None, Some(e))
  }

  /** The explicit-size branch of `CustomPropertySize`: height and then
      width, each only when it is not the ignore marker. */
  function ExplicitSize(a: Annotation): (r: Effect)
    ensures r.register.None?
    ensures forall i :: 0 <= i < |r.calls| ==>
      (r.calls[i].SetHeight? && i == 0 && Get(a, "height") == (if r.calls[i].height.Some? then Some(VStr(r.calls[i].height.value)) else None))
      || (r.calls[i].SetWidth? && i == |r.calls| - 1 && Get(a, "width") == (if r.calls[i].width.Some? then Some(VStr(r.calls[i].width.value)) else None))
    ensures forall i :: 0 <= i < |r.calls| ==>
      !(r.calls[i].SetHeight? && IsIgnored(r.calls[i].height)) && !(r.calls[i].SetWidth? && IsIgnored(r.calls[i].width))
    ensures Get(a, "height") == Some(VStr(IgnoredString)) && Get(a, "width") == Some(VStr(IgnoredString)) ==> r == NoEffect
    ensures AsString(Get(a, "height")).Failure? ==> r == Throws([], ClassCast)
    ensures LiveKey(a, "height") ==> |r.calls| > 0 && r.calls[0] == SetHeight(AsString(Get(a, "height")).value)
    ensures AsString(Get(a, "height")).Success? ==>
      (r.thrown.None? <==> AsString(Get(a, "width")).Success?) && (r.thrown.Some? ==> r.thrown == Some(ClassCast))
    ensures AsString(Get(a, "height")).Success? && LiveKey(a, "width") ==>
      |r.calls| > 0 && r.calls[|r.calls| - 1] == SetWidth(AsString(Get(a, "width")).value)
  {
    match AsString(Get(a, "height"))
    case Failure(e) => Throws([], e)
    case Success(height) =>
      var heightCalls := if IsIgnored(height) then [] else [SetHeight(height)];
      match AsString(Get(a, "width"))
      case Failure(e) => Throws(heightCalls, e)
      case Success(width) =>
        var widthCalls := if IsIgnored(width) then [] else [SetWidth(width)];
        Effect(heightCalls + widthCalls, None, None)
  }

  /** The flag the sizing order unboxes next is null: `sizeFull`, or
      `sizeUndefined` after a false `sizeFull`. */
  predicate MissingFlag(a: Annotation)
  {
    Get(a, "sizeFull").None? || (Get(a, "sizeFull") == Some(VBool(false)) && Get(a, "sizeUndefined").None?)
  }

  /** `CustomPropertySize.apply`: `sizeFull` before `sizeUndefined` before an
      explicit width and height; components that are not `HasSize` are left
      alone (the two flags are still cast). */
  function ApplySize(k: Kind, a: Annotation): (r: Effect)
    ensures r.register.None?
    ensures !k.hasSize ==> r.calls == []
    ensures k.hasSize && Get(a, "sizeFull") == Some(VBool(true)) && AsBoolean(Get(a, "sizeUndefined")).Success? ==>
      r == Effect([SetSizeFull], None, None)
    ensures k.hasSize && Get(a, "sizeFull") == Some(VBool(false)) && Get(a, "sizeUndefined") == Some(VBool(true)) ==>
      r == Effect([SetSizeUndefined], None, None)
    ensures SetSizeFull in r.calls ==> r.calls == [SetSizeFull] && Get(a, "sizeFull") == Some(VBool(true))
    ensures SetSizeUndefined in r.calls ==>
      r.calls == [SetSizeUndefined] && Get(a, "sizeFull") == Some(VBool(false)) && Get(a, "sizeUndefined") == Some(VBool(true))
    ensures r.thrown == Some(NullPointer) ==> k.hasSize && MissingFlag(a)
    ensures k.hasSize && AsBoolean(Get(a, "sizeUndefined")).Success? && MissingFlag(a) ==> r == Throws([], NullPointer)
    ensures AsBoolean(Get(a, "sizeFull")).Failure? || AsBoolean(Get(a, "sizeUndefined")).Failure? ==>
      r == Throws([], ClassCast)
    ensures !k.hasSize && AsBoolean(Get(a, "sizeFull")).Success? && AsBoolean(Get(a, "sizeUndefined")).Success? ==>
      r == NoEffect
    ensures k.hasSize && Get(a, "sizeFull") == Some(VBool(false)) && Get(a, "sizeUndefined") == Some(VBool(false)) ==>
      r == ExplicitSize(a)
  {
    match AsBoolean(Get(a, "sizeFull"))
    case Failure(e) => Throws([], e)
    case Success(full) =>
      match AsBoolean(Get(a, "sizeUndefined"))
      case Failure(e) => Throws([], e)
      case Success(undefined) =>
        if !k.hasSize then NoEffect
        else if full.None? then Throws([], NullPointer)
        else if full.value then Effect([SetSizeFull], None, None)
        else if undefined.None? then Throws([], NullPointer)
        else if undefined.value then Effect([SetSizeUndefined], None, None)
        else ExplicitSize(a)
  }

  /** `CustomPropertyCaptionKey.apply`. Unless the key is the ignore marker,
      the component (which must be an `HtmlComponent`) gets the bundle's text
      for the key as its title, or the fixed message when there is no
      bundle; with a bundle and `localized` set it is also registered with
      the key. */
  function ApplyCaptionKey(k: Kind, a: Annotation, bundle: Option<Bundle>): (r: Effect)
    ensures Get(a, "captionKey") == Some(VStr(IgnoredString)) && AsBoolean(Get(a, "localized")).Success? ==> r == NoEffect
    ensures r.calls != [] ==>
      k.isHtmlComponent && AsString(Get(a, "captionKey")).Success?
      && r.calls == [SetTitle(BundleText(bundle, AsString(Get(a, "captionKey")).value))]
    ensures r.register.Some? ==>
      k.isHtmlComponent && bundle.Some? && Get(a, "localized") == Some(VBool(true))
      && AsString(Get(a, "captionKey")).Success?
      && r.register.value == AsString(Get(a, "captionKey")).value && r.thrown.None?
    ensures bundle.None? ==> r.register.None?
    ensures forall key :: (bundle.Some? && k.isHtmlComponent && Get(a, "localized") == Some(VBool(true))
                           && Get(a, "captionKey") == Some(VStr(key)) && key != IgnoredString) ==>
      r == Effect([SetTitle(GetText(bundle.value, Some(key)))], Some(Some(key)), None)
    ensures r.thrown == Some(ClassCast) ==> r.calls == []
    ensures AsString(Get(a, "captionKey")).Failure? || AsBoolean(Get(a, "localized")).Failure? ==>
      r == Throws([], ClassCast)
    ensures LiveKey(a, "captionKey") && AsBoolean(Get(a, "localized")).Success? ==>
      (!k.isHtmlComponent ==> r == Throws([], ClassCast))
      && (k.isHtmlComponent && bundle.None? ==> r == Effect([SetTitle(Some(NoBundleMessage))], None, None))
      && (k.isHtmlComponent && bundle.Some? ==>
            r.calls == [SetTitle(GetText(bundle.value, AsString(Get(a, "captionKey")).value))]
            && (r.register.Some? <==> Get(a, "localized") == Some(VBool(true)))
            && (r.thrown.Some? <==> Get(a, "localized").None?)
            && (r.thrown.Some? ==> r.thrown == Some(NullPointer)))
  {
    match AsString(Get(a, "captionKey"))
    case Failure(e) => Throws([], e)
    case Success(key) =>
      match AsBoolean(Get(a, "localized"))
      case Failure(e) => Throws([], e)
      case Success(localized) =>
        if IsIgnored(key) then NoEffect
        else if !k.isHtmlComponent then Throws([], ClassCast)
        else
          match bundle
          case None => Effect([SetTitle(Some(NoBundleMessage))], None, None)
          case Some(b) =>
            var call := SetTitle(GetText(b, key));
            if localized.None? then Throws([call], NullPointer)
            else if localized.value then Effect([call], Some(key), None)
            else Effect([call], None, None)
  }

  /** `CustomPropertyStyleName.apply`: one `setClassName` per style name, in
      order. A missing array is a null dereference; a non-empty array on a
      component that is not `HasStyle` fails the cast before any call. */
  function ApplyStyleName(k: Kind, a: Annotation): (r: Effect)
    ensures r.register.None?
    ensures r.thrown.None? <==>
      exists names :: Get(a, "styleName") == Some(VStrs(names)) && (names == [] || k.hasStyle)
    ensures forall names :: Get(a, "styleName") == Some(VStrs(names)) && (names == [] || k.hasStyle) ==>
      |r.calls| == |names| && forall i :: 0 <= i < |names| ==> r.calls[i] == SetClassName(names[i])
    ensures r.thrown.Some? ==> r.calls == []
    ensures Get(a, "styleName").None? ==> r == Throws([], NullPointer)
    ensures AsStrings(Get(a, "styleName")).Failure? ==> r == Throws([], ClassCast)
    ensures Get(a, "styleName").Some? && Get(a, "styleName").value.VStrs?
            && Get(a, "styleName").value.strs != [] && !k.hasStyle ==>
      r == Throws([], ClassCast)
  {
    match AsStrings(Get(a, "styleName"))
    case Failure(e) => Throws([], e)
    case Success(None) => Throws([], NullPointer)
    case Success(Some(names)) =>
      if |names| == 0 then NoEffect
      else if !k.hasStyle then Throws([], ClassCast)
      else Effect(seq(|names|, i requires 0 <= i < |names| => SetClassName(names[i])), None, None)
  }

  /** `CustomPropertyLabelValueKey.apply`, reading the key from the attribute
      `keyAttribute`: unless the key is the ignore marker, the `Text`
      component's text becomes the bundle's text for the key, or the fixed
      message when there is no bundle; with a bundle and `localized` set the
      component is then registered, which needs it to be an `HtmlComponent`. */
  function LabelValueKeyFrom(keyAttribute: string, k: Kind, a: Annotation, bundle: Option<Bundle>): (r: Effect)
    ensures Get(a, keyAttribute) == Some(VStr(IgnoredString)) ==> r == NoEffect
    ensures AsString(Get(a, keyAttribute)).Success? && !IsIgnored(AsString(Get(a, keyAttribute)).value) && k.isText ==>
      r.calls == [SetText(BundleText(bundle, AsString(Get(a, keyAttribute)).value))]
    ensures r.register.Some? ==>
      k.isHtmlComponent && bundle.Some? && Get(a, "localized") == Some(VBool(true))
      && AsString(Get(a, keyAttribute)).Success?
      && r.register.value == AsString(Get(a, keyAttribute)).value && r.thrown.None?
    ensures (k.isText && !k.isHtmlComponent && bundle.Some? && Get(a, "localized") == Some(VBool(true))
             && AsString(Get(a, keyAttribute)).Success? && !IsIgnored(AsString(Get(a, keyAttribute)).value)) ==>
      r.thrown == Some(ClassCast)
    ensures AsString(Get(a, keyAttribute)).Failure? ==> r == Throws([], ClassCast)
    ensures LiveKey(a, keyAttribute) && !k.isText ==> r == Throws([], ClassCast)
    ensures LiveKey(a, keyAttribute) && k.isText && bundle.None? ==>
      r == Effect([SetText(Some(NoBundleMessage))], None, None)
    ensures LiveKey(a, keyAttribute) && k.isText && bundle.Some? ==>
      var key := AsString(Get(a, keyAttribute)).value;
      var call := SetText(GetText(bundle.value, key));
      && (AsBoolean(Get(a, "localized")).Failure? ==> r == Throws([call], ClassCast))
      && (Get(a, "localized").None? ==> r == Throws([call], NullPointer))
      && (Get(a, "localized") == Some(VBool(false)) ==> r == Effect([call], None, None))
      && (Get(a, "localized") == Some(VBool(true)) && k.isHtmlComponent ==> r == Effect([call], Some(key), None))
  {
    match AsString(Get(a, keyAttribute))
    case Failure(e) => Throws([], e)
    case Success(key) =>
      if IsIgnored(key) then NoEffect
      else if !k.isText then Throws([], ClassCast)
      else
        match bundle
        case None => Effect([SetText(Some(NoBundleMessage))], None, None)
        case Some(b) =>
          var call := SetText(GetText(b, key));
          match AsBoolean(Get(a, "localized"))
          case Failure(e) => Throws([call], e)
          case Success(localized) =>
            if localized.None? then Throws([call], NullPointer)
            else if !localized.value then Effect([call], None, None)
            else if !k.isHtmlComponent then Throws([call], ClassCast)
            else Effect([call], Some(key), None)
  }

  /** The label value key as the repository reads it: from `valueKey`. */
  function ApplyLabelValueKeyAsWritten(k: Kind, a: Annotation, bundle: Option<Bundle>): (r: Effect)
    ensures Get(a, "valueKey").None? && k.isText ==> r.calls == [SetText(BundleText(bundle, None))]
  {
    LabelValueKeyFrom("valueKey", k, a, bundle)
  }

  /** The label value key read from `text`, the member the generator
      declares for `Text` components. */
  function ApplyLabelValueKey(k: Kind, a: Annotation, bundle: Option<Bundle>): (r: Effect)
    ensures Get(a, "text") == Some(VStr(IgnoredString)) ==> r == NoEffect
    ensures forall key :: Get(a, "text") == Some(VStr(key)) && key != IgnoredString && k.isText ==>
      r.calls == [SetText(BundleText(bundle, Some(key)))]
  {
    LabelValueKeyFrom("text", k, a, bundle)
  }

  function EffectOf(p: CustomProperty, k: Kind, a: Annotation, bundle: Option<Bundle>): Effect
  {
    match p
    case Size => ApplySize(k, a)
    case CaptionKey => ApplyCaptionKey(k, a, bundle)
    case StyleName => ApplyStyleName(k, a)
    case LabelValueKey => ApplyLabelValueKey(k, a, bundle)
  }

  /** Only the caption key and the label value key register components, and
      only `HtmlComponent`s. */
  lemma EffectRegistersHtmlOnly(p: CustomProperty, k: Kind, a: Annotation, bundle: Option<Bundle>)
    ensures EffectOf(p, k, a, bundle).register.Some? ==>
      k.isHtmlComponent && (p.CaptionKey? || p.LabelValueKey?) && EffectOf(p, k, a, bundle).thrown.None?
  {
  }

  /** The state a custom property works on and leaves behind. */
  datatype Outcome = Outcome(component: Component, registry: CaptionRegistry, thrown: Option<Thrown>)

  /** The custom-property loop of `getComponent` for the component `id`:
      each custom property that applies is applied in turn; the first
      exception ends the loop and leaves the effects made so far. */
  function ApplyCustomProperties(ps: seq<CustomProperty>, id: ComponentId, c: Component, l: CaptionRegistry,
                                 a: Annotation, bundle: Option<Bundle>): (r: Outcome)
    ensures r.component.kind == c.kind
    ensures |c.calls| <= |r.component.calls| && r.component.calls[..|c.calls|] == c.calls
    ensures r.registry.captions.Keys <= l.captions.Keys + {id}
    ensures forall other :: other in l.captions && other != id ==>
      other in r.registry.captions && r.registry.captions[other] == l.captions[other]
    ensures id in r.registry.captions && (id !in l.captions || r.registry.captions[id] != l.captions[id]) ==>
      c.kind.isHtmlComponent
    ensures (forall i :: 0 <= i < |ps| ==> !AppliesTo(ps[i], c.kind)) ==> r == Outcome(c, l, None)
    decreases |ps|
  {
    if |ps| == 0 then Outcome(c, l, None)
    else if !AppliesTo(ps[0], c.kind) then
      var r := ApplyCustomProperties(ps[1..], id, c, l, a, bundle);
      assert forall i :: 1 <= i < |ps| ==> ps[1..][i - 1] == ps[i];
      r
    else
      var e := EffectOf(ps[0], c.kind, a, bundle);
      EffectRegistersHtmlOnly(ps[0], c.kind, a, bundle);
      var c2 := Then(c, e.calls);
      var l2 := if e.register.Some? then AddLocalizedCaption(l, id, e.register.value) else l;
      if e.thrown.Some? then Outcome(c2, l2, e.thrown)
      else ApplyCustomProperties(ps[1..], id, c2, l2, a, bundle)
  }

  /** One custom property: skipped when it does not apply; otherwise its
      calls are made, its registration recorded, and its exception (if any)
      becomes the loop's. */
  lemma ApplyCustomPropertiesSingle(p: CustomProperty, id: ComponentId, c: Component, l: CaptionRegistry,
                                    a: Annotation, bundle: Option<Bundle>)
    ensures var r := ApplyCustomProperties([p], id, c, l, a, bundle);
      var e := EffectOf(p, c.kind, a, bundle);
      && (!AppliesTo(p, c.kind) ==> r == Outcome(c, l, None))
      && (AppliesTo(p, c.kind) ==>
            r.component == Then(c, e.calls) && r.thrown == e.thrown
            && r.registry == (if e.register.Some? then AddLocalizedCaption(l, id, e.register.value) else l))
  {
    assert [p][1..] == [];
  }

  /** The loop runs the custom properties in order: after `ps1` ends without
      an exception, `ps1 + ps2` goes on with `ps2` from where `ps1` left the
      component and the registry; once `ps1` throws, `ps2` is never run. */
  lemma {:induction false} ApplyCustomPropertiesConcat(ps1: seq<CustomProperty>, ps2: seq<CustomProperty>,
                                                       id: ComponentId, c: Component, l: CaptionRegistry,
                                                       a: Annotation, bundle: Option<Bundle>)
    ensures var r1 := ApplyCustomProperties(ps1, id, c, l, a, bundle);
      ApplyCustomProperties(ps1 + ps2, id, c, l, a, bundle) ==
        if r1.thrown.Some? then r1 else ApplyCustomProperties(ps2, id, r1.component, r1.registry, a, bundle)
    decreases |ps1|
  {
    if |ps1| == 0 {
      assert ps1 + ps2 == ps2;
    } else {
      assert (ps1 + ps2)[0] == ps1[0];
      assert (ps1 + ps2)[1..] == ps1[1..] + ps2;
      if !AppliesTo(ps1[0], c.kind) {
        ApplyCustomPropertiesConcat(ps1[1..], ps2, id, c, l, a, bundle);
      } else {
        var e := EffectOf(ps1[0], c.kind, a, bundle);
        var c2 := Then(c, e.calls);
        var l2 := if e.register.Some? then AddLocalizedCaption(l, id, e.register.value) else l;
        if e.thrown.None? {
          ApplyCustomPropertiesConcat(ps1[1..], ps2, id, c2, l2, a, bundle);
        }
      }
    }
  }

  /** The runtime state `getComponent` works in: the components created so
      far (by identity, with the next identity to hand out) and the caption
      registry of the `Localizer`. */
  datatype Session = Session(nextId: ComponentId, components: map<ComponentId, Component>, registry: CaptionRegistry)

  /** Every known component was handed out before, and the registry holds
      only known components, all of them `HtmlComponent`s, as its key type
      demands. */
  ghost predicate Valid(s: Session)
  {
    && (forall id :: id in s.components ==> id < s.nextId)
    && (forall id :: id in s.registry.captions ==> id in s.components && s.components[id].kind.isHtmlComponent)
  }

  const InitialSession := Session(0, map[], EmptyRegistry)

  /** The session a producer starts from is consistent. */
  lemma InitialSessionValid()
    ensures Valid(InitialSession)
  {
  }

  /** The class `implementation` names, or the exception creating it throws:
      a missing annotation or attribute is a null dereference, a value that
      is no class fails the cast, and a class that cannot be instantiated
      fails `newInstance`. */
  function ImplementationKind(annotation: Option<Annotation>, catalog: map<string, Kind>): (r: Result<Kind, Thrown>)
    ensures r.Success? <==>
      annotation.Some? && exists n :: n in catalog && Get(annotation.value, "implementation") == Some(VClass(n))
    ensures r.Success? ==>
      exists n :: n in catalog && catalog[n] == r.value && Get(annotation.value, "implementation") == Some(VClass(n))
    ensures annotation.None? ==> r == Failure(NullPointer)
    ensures annotation.Some? && Get(annotation.value, "implementation").None? ==> r == Failure(NullPointer)
    ensures annotation.Some? && Get(annotation.value, "implementation").Some?
            && !Get(annotation.value, "implementation").value.VClass? ==>
      r == Failure(ClassCast)
    ensures annotation.Some? && Get(annotation.value, "implementation").Some?
            && Get(annotation.value, "implementation").value.VClass?
            && Get(annotation.value, "implementation").value.className !in catalog ==>
      r == Failure(Instantiation)
  {
    match annotation
    case None => Failure(NullPointer)
    case Some(a) =>
      match Get(a, "implementation")
      case None => Failure(NullPointer)
      case Some(VClass(n)) => if n in catalog then Success(catalog[n]) else Failure(Instantiation)
      case Some(_) => Failure(ClassCast)
  }

  /** `getComponent`: creates the class the annotation names, applies its
      attributes through the setters and then the custom properties. A
      component is part of the state as soon as it is created, even when a
      custom property then throws: the registry may already refer to it. */
  function GetComponent(s: Session, qualifiers: seq<Annotation>, annotationType: string,
                        catalog: map<string, Kind>, bundle: Option<Bundle>, customs: seq<CustomProperty>)
    : (r: (Session, Result<ComponentId, Thrown>))
    ensures ImplementationKind(GetPropertyAnnotation(qualifiers, annotationType), catalog).Failure? ==>
      r == (s, Failure(ImplementationKind(GetPropertyAnnotation(qualifiers, annotationType), catalog).error))
    ensures ImplementationKind(GetPropertyAnnotation(qualifiers, annotationType), catalog).Success? ==>
      r.0.nextId == s.nextId + 1 && s.nextId in r.0.components
      && r.0.components[s.nextId].kind == ImplementationKind(GetPropertyAnnotation(qualifiers, annotationType), catalog).value
      && r.0.components == s.components[s.nextId := r.0.components[s.nextId]]
    ensures r.1.Success? ==> r.1.value == s.nextId
    ensures r.0.registry.captions.Keys <= s.registry.captions.Keys + {s.nextId}
    ensures forall id :: id in s.registry.captions && id != s.nextId ==>
      id in r.0.registry.captions && r.0.registry.captions[id] == s.registry.captions[id]
    ensures ImplementationKind(GetPropertyAnnotation(qualifiers, annotationType), catalog).Success? ==>
      var k := ImplementationKind(GetPropertyAnnotation(qualifiers, annotationType), catalog).value;
      var a := GetPropertyAnnotation(qualifiers, annotationType).value;
      var o := ApplyCustomProperties(customs, s.nextId, ApplyProperties(Component(k, []), a), s.registry, a, bundle);
      && r.0.components[s.nextId] == o.component
      && r.0.registry == o.registry
      && (r.1.Failure? <==> o.thrown.Some?)
      && (o.thrown.Some? ==> r.1.error == o.thrown.value)
  {
    var annotation := GetPropertyAnnotation(qualifiers, annotationType);
    match ImplementationKind(annotation, catalog)
    case Failure(e) => (s, Failure(e))
    case Success(k) =>
      var a := annotation.value;
      var id := s.nextId;
      var configured := ApplyProperties(Component(k, []), a);
      var o := ApplyCustomProperties(customs, id, configured, s.registry, a, bundle);
      var s2 := Session(id + 1, s.components[id := o.component], o.registry);
      (s2, if o.thrown.Some? then Failure(o.thrown.value) else Success(id))
  }

  /** A produced component carries, first, one setter call for each
      attribute that has a setter and is not ignored, in attribute order,
      and after that only what the custom properties did. */
  lemma GetComponentSetters(s: Session, qualifiers: seq<Annotation>, annotationType: string,
                            catalog: map<string, Kind>, bundle: Option<Bundle>, customs: seq<CustomProperty>)
    requires GetComponent(s, qualifiers, annotationType, catalog, bundle, customs).1.Success?
    ensures var r := GetComponent(s, qualifiers, annotationType, catalog, bundle, customs);
      var a := GetPropertyAnnotation(qualifiers, annotationType).value;
      var c := r.0.components[r.1.value];
      var d := Dispatch(a.attributes, c.kind.setters);
      |d| <= |c.calls| && c.calls[..|d|] == d
  {
  }

  /** `getComponent` keeps the session consistent: the registry only ever
      receives the component just created, and only when it is an
      `HtmlComponent`. */
  lemma GetComponentValid(s: Session, qualifiers: seq<Annotation>, annotationType: string,
                          catalog: map<string, Kind>, bundle: Option<Bundle>, customs: seq<CustomProperty>)
    requires Valid(s)
    ensures Valid(GetComponent(s, qualifiers, annotationType, catalog, bundle, customs).0)
  {
    var annotation := GetPropertyAnnotation(qualifiers, annotationType);
    match ImplementationKind(annotation, catalog)
    case Failure(e) =>
    case Success(k) =>
      var a := annotation.value;
      var id := s.nextId;
      var configured := ApplyProperties(Component(k, []), a);
      var o := ApplyCustomProperties(customs, id, configured, s.registry, a, bundle);
      assert id !in s.registry.captions;
  }

  /** The `@TextBundleUpdated` event: the registry retitles its components. */
  function BundleUpdated(s: Session, bundle: Option<Bundle>): (r: Session)
    ensures r.nextId == s.nextId && r.registry == s.registry
    ensures r.components.Keys == s.components.Keys
    ensures forall id :: id in s.components && id !in s.registry.captions ==> r.components[id] == s.components[id]
  {
    Session(s.nextId, UpdateCaption(s.registry, s.components, bundle), s.registry)
  }

  lemma BundleUpdatedValid(s: Session, bundle: Option<Bundle>)
    requires Valid(s)
    ensures Valid(BundleUpdated(s, bundle))
  {
  }
}

=== FILE: generated_source.dfy ===
/** Readers for the Java source the generator writes. Each reader recovers
    from the text what the generator put into it; the round-trip lemmas show
    that the annotation text declares exactly the model's members in
    ascending name order, that the producer text has one producer method per
    model in ascending simple-name order, and that member defaults read back
    as the values they were rendered from. */
module GeneratedSource {
  import opened Wrappers
  import opened JavaText
  import opened Sorting
  import opened Generator

  /** Text after the last member of an annotation, and after the last
      producer method. */
  const ClosingText := "\n\n}"

  /** Text before every member declaration line. */
  const MemberPrefix := "\n\n@Nonbinding\n"

  /** A member whose type, name and default can be told apart in its
      declaration line: Java type names contain no blank, member names no
      parenthesis, and none of the three a line break. */
  predicate Readable(p: ComponentProperty)
  {
    ' ' !in p.typeName && '\n' !in p.typeName && '(' !in p.name && '\n' !in p.name
    && '\n' !in p.defaultValue
  }

  /** Reads a line `<type> <name>() default <default>;`. */
  function ParseDeclaration(line: string): Option<ComponentProperty>
  {
    var i := IndexOf(line, ' ');
    if i == |line| then None
    else
      var afterType := line[i + 1..];
      var j := IndexOf(afterType, '(');
      var tail :- StripPrefix(afterType[j..], "() default ");
      if |tail| == 0 || tail[|tail| - 1] != ';' then None
      else Some(ComponentProperty(line[..i], afterType[..j], tail[..|tail| - 1]))
  }

  /** The declaration line of `p`, cut where a reader cuts it. */
  lemma DeclarationShape(p: ComponentProperty)
    ensures MemberDeclaration(p) == p.typeName + [' '] + (p.name + ['('] + (") default " + (p.defaultValue + ";")))
  {
  }

  lemma DeclarationOneLine(p: ComponentProperty)
    requires Readable(p)
    ensures '\n' !in MemberDeclaration(p)
  {
  }

  lemma DefaultClause(tail: string)
    ensures "() default " + tail == ['('] + (") default " + tail)
  {
  }

  lemma ParseDeclarationParts(t: string, n: string, d: string)
    requires ' ' !in t && '(' !in n
    ensures ParseDeclaration(t + [' '] + (n + ['('] + (") default " + (d + ";")))) == Some(ComponentProperty(t, n, d))
  {
    var tail := d + ";";
    var afterName := ") default " + tail;
    var afterType := n + ['('] + afterName;
    var line := t + [' '] + afterType;
    CutAt(t, ' ', afterType);
    assert IndexOf(line, ' ') == |t|;
    assert line[|t| + 1..] == afterType;
    CutAt(n, '(', afterName);
    assert IndexOf(afterType, '(') == |n|;
    DefaultClause(tail);
    assert afterType[|n|..] == "() default " + tail;
    StripPrefixConcat("() default ", tail);
    assert StripPrefix(afterType[|n|..], "() default ") == Some(tail);
    assert tail[..|tail| - 1] == d;
  }

  /** `toAnnotationMethod`'s declaration line reads back as the member. */
  lemma DeclarationRoundTrip(p: ComponentProperty)
    requires Readable(p)
    ensures '\n' !in MemberDeclaration(p)
    ensures ParseDeclaration(MemberDeclaration(p)) == Some(p)
  {
    DeclarationShape(p);
    DeclarationOneLine(p);
    ParseDeclarationParts(p.typeName, p.name, p.defaultValue);
  }

  /** Reads the member block of an annotation up to and including its
      closing text. */
  function ParseMembers(s: string): Option<seq<ComponentProperty>>
    decreases |s|
  {
    if s == ClosingText then Some([])
    else
      var t :- StripPrefix(s, MemberPrefix);
      var i := IndexOf(t, '\n');
      var p :- ParseDeclaration(t[..i]);
      var ps :- ParseMembers(t[i..]);
      Some([p] + ps)
  }

  lemma NonbindingPrefix()
    ensures "\n" + "\n@Nonbinding\n" == MemberPrefix
  {
  }

  /** One member followed by more text, cut where a reader cuts it. */
  lemma MembersShape(ps: seq<ComponentProperty>)
    requires |ps| > 0
    ensures AnnotationMembers(ps) + ClosingText
      == MemberPrefix + (MemberDeclaration(ps[0]) + (AnnotationMembers(ps[1..]) + ClosingText))
  {
    var rest := AnnotationMembers(ps[1..]);
    var d := MemberDeclaration(ps[0]);
    assert AnnotationMembers(ps) == "\n" + ToAnnotationMethod(ps[0]) + rest;
    assert ToAnnotationMethod(ps[0]) == "\n@Nonbinding\n" + d;
    NonbindingPrefix();
    Regroup("\n", "\n@Nonbinding\n", d, rest, ClosingText);
  }

  /** What follows a member starts a new line. */
  lemma MembersStartLine(ps: seq<ComponentProperty>)
    ensures (AnnotationMembers(ps) + ClosingText)[0] == '\n'
  {
    if |ps| > 0 {
      assert (AnnotationMembers(ps) + ClosingText)[0] == AnnotationMembers(ps)[0];
    }
  }

  lemma Regroup(a: string, b: string, d: string, r: string, c: string)
    ensures a + (b + d) + r + c == (a + b) + (d + (r + c))
  {
  }

  lemma ParseMembersStep(decl: string, rest: string)
    requires '\n' !in decl && |rest| > 0 && rest[0] == '\n'
    ensures ParseMembers(MemberPrefix + (decl + rest)) ==
      (var p :- ParseDeclaration(decl); var ps :- ParseMembers(rest); Some([p] + ps))
  {
    var s := MemberPrefix + (decl + rest);
    assert s != ClosingText by {
      assert s[2] == '@' && ClosingText[2] == '}';
    }
    StripPrefixConcat(MemberPrefix, decl + rest);
    IndexOfSeparator(decl, rest, '\n');
    assert (decl + rest)[..|decl|] == decl;
    assert (decl + rest)[|decl|..] == rest;
  }

  /** The member block `toAnnotation` writes reads back as the members, in
      the order they were written. */
  lemma {:induction false} MembersRoundTrip(ps: seq<ComponentProperty>)
    requires forall p :: p in ps ==> Readable(p)
    ensures ParseMembers(AnnotationMembers(ps) + ClosingText) == Some(ps)
  {
    if |ps| > 0 {
      MembersShape(ps);
      MembersStartLine(ps[1..]);
      DeclarationRoundTrip(ps[0]);
      ParseMembersStep(MemberDeclaration(ps[0]), AnnotationMembers(ps[1..]) + ClosingText);
      MembersRoundTrip(ps[1..]);
      assert ps == [ps[0]] + ps[1..];
    }
  }

  /** What a reader finds in an annotation source: its name and its members
      in declaration order. */
  datatype AnnotationSource = AnnotationSource(name: string, members: seq<ComponentProperty>)

  function ParseAnnotation(text: string): Option<AnnotationSource>
  {
    var t :- StripPrefix(text, AnnotationPreamble);
    var i := IndexOf(t, ' ');
    var body :- StripPrefix(t[i..], " {");
    var members :- ParseMembers(body);
    Some(AnnotationSource(t[..i], members))
  }

  lemma AnnotationShape(m: ComponentModel)
    ensures ToAnnotation(m) == AnnotationPreamble + (FormatAnnotationClassName(m.componentClass)
      + (" {" + (AnnotationMembers(OrderedProperties(m)) + ClosingText)))
  {
  }

  lemma ParseAnnotationStep(name: string, members: string)
    requires ' ' !in name
    ensures ParseAnnotation(AnnotationPreamble + (name + (" {" + members))) ==
      (var ps :- ParseMembers(members); Some(AnnotationSource(name, ps)))
  {
    var t := name + (" {" + members);
    StripPrefixConcat(AnnotationPreamble, t);
    assert t == name + [' '] + ("{" + members);
    CutAt(name, ' ', "{" + members);
    assert t[|name|..] == " {" + members;
    StripPrefixConcat(" {", members);
  }

  /** The sorted members are the model's members, so they are readable too. */
  lemma OrderedReadable(m: ComponentModel)
    requires forall p :: p in m.properties ==> Readable(p)
    ensures forall p :: p in OrderedProperties(m) ==> Readable(p)
  {
    forall p | p in OrderedProperties(m)
      ensures Readable(p)
    {
      assert p in multiset(OrderedProperties(m));
    }
  }

  /** `toAnnotation` declares the annotation `formatAnnotationClassName`
      names, with exactly the model's members (as a multiset) in ascending
      order of member name, each in the shape `toAnnotationMethod` gives. */
  lemma AnnotationRoundTrip(m: ComponentModel)
    requires ' ' !in m.componentClass.simpleName
    requires forall p :: p in m.properties ==> Readable(p)
    ensures ParseAnnotation(ToAnnotation(m)) ==
      Some(AnnotationSource(FormatAnnotationClassName(m.componentClass), OrderedProperties(m)))
    ensures SortedBy(OrderedProperties(m), PropertyName)
    ensures multiset(OrderedProperties(m)) == multiset(m.properties)
  {
    var name := FormatAnnotationClassName(m.componentClass);
    assert ' ' !in name;
    OrderedReadable(m);
    AnnotationShape(m);
    ParseAnnotationStep(name, AnnotationMembers(OrderedProperties(m)) + ClosingText);
    MembersRoundTrip(OrderedProperties(m));
  }

  const ProducesPrefix := "@Produces\n@"

  /** The statement and closing lines of a producer method for annotation `a`. */
  function ProducerReturn(a: string): string
  {
    "\treturn cc.getComponent(" + a + ".class, ip);\n}\n\n"
  }

  /** What a reader sees of one producer method: the annotation it produces
      for and its signature line, which names the component type. */
  datatype ProducerEntry = ProducerEntry(annotation: string, signature: string)

  /** Reads the producer methods of a producer class up to and including its
      closing text, yielding each method's annotation and signature line. */
  function ParseProducerMethods(s: string): Option<seq<ProducerEntry>>
    decreases |s|
  {
    if s == ClosingText then Some([])
    else
      var t :- StripPrefix(s, ProducesPrefix);
      var i := IndexOf(t, '\n');
      if i == |t| then None
      else
        var a := t[..i];
        var u := t[i + 1..];
        var j := IndexOf(u, '\n');
        if j == |u| then None
        else
          var rest :- StripPrefix(u[j + 1..], ProducerReturn(a));
          var entries :- ParseProducerMethods(rest);
          Some([ProducerEntry(a, u[..j])] + entries)
  }

  function ParseProducer(text: string): Option<seq<ProducerEntry>>
  {
    var t :- StripPrefix(text, ProducerPreamble);
    ParseProducerMethods(t)
  }

  /** The producer method of each model as a reader sees it, in order. */
  function ProducerEntries(ms: seq<ComponentModel>): seq<ProducerEntry>
  {
    if |ms| == 0 then []
    else
      var c := ms[0].componentClass;
      [ProducerEntry(FormatAnnotationClassName(c), ProducerSignature(c))] + ProducerEntries(ms[1..])
  }

  /** A class whose producer method lines contain no line break. */
  predicate ProducibleClass(c: ComponentClass)
  {
    '\n' !in c.name && '\n' !in c.simpleName
  }

  lemma ProducerLinesOneLine(c: ComponentClass)
    requires ProducibleClass(c)
    ensures '\n' !in FormatAnnotationClassName(c)
    ensures '\n' !in ProducerSignature(c)
  {
    var a := FormatAnnotationClassName(c);
    assert '\n' !in a;
    var tail := "(final InjectionPoint ip) throws Exception {";
    assert forall i :: 0 <= i < |tail| ==> tail[i] != '\n';
    assert ProducerSignature(c) == "public " + c.name + " create" + c.simpleName + "With" + a + tail;
  }

  lemma Regroup7(p: string, a: string, n: string, g: string, t: string, m: string, e: string)
    ensures p + a + n + g + n + t + m + e == p + (a + (n + (g + (n + (t + (m + e))))))
  {
  }

  lemma Regroup3(x: string, l: string, a: string, m: string)
    ensures x + l + a + m == x + (l + a + m)
  {
  }

  lemma ProducerMethodShape(c: ComponentClass)
    ensures ToProducerMethod(c) == ProducesPrefix + FormatAnnotationClassName(c) + "\n" + ProducerSignature(c)
      + "\n" + ProducerReturn(FormatAnnotationClassName(c))
  {
    var a := FormatAnnotationClassName(c);
    var head := ProducesPrefix + a + "\n" + ProducerSignature(c) + "\n";
    Regroup3(head, "\treturn cc.getComponent(", a, ".class, ip);\n}\n\n");
  }

  /** One producer method followed by more text, cut where a reader cuts it. */
  lemma ProducerMethodsShape(ms: seq<ComponentModel>)
    requires |ms| > 0
    ensures var c := ms[0].componentClass; var a := FormatAnnotationClassName(c);
      ProducerMethods(ms) + ClosingText
      == ProducesPrefix + (a + ("\n" + (ProducerSignature(c) + ("\n" + (ProducerReturn(a) + (ProducerMethods(ms[1..]) + ClosingText))))))
  {
    var c := ms[0].componentClass;
    var a := FormatAnnotationClassName(c);
    ProducerMethodShape(c);
    assert ProducerMethods(ms) == ToProducerMethod(c) + ProducerMethods(ms[1..]);
    Regroup7(ProducesPrefix, a, "\n", ProducerSignature(c), ProducerReturn(a), ProducerMethods(ms[1..]), ClosingText);
  }

  lemma ParseProducerStep(a: string, g: string, rest: string)
    requires '\n' !in a && '\n' !in g
    ensures ParseProducerMethods(ProducesPrefix + (a + ("\n" + (g + ("\n" + (ProducerReturn(a) + rest))))))
      == (var entries :- ParseProducerMethods(rest); Some([ProducerEntry(a, g)] + entries))
  {
    var u := g + ("\n" + (ProducerReturn(a) + rest));
    var t := a + ("\n" + u);
    var s := ProducesPrefix + t;
    assert s != ClosingText by {
      assert s[0] == '@' && ClosingText[0] == '\n';
    }
    StripPrefixConcat(ProducesPrefix, t);
    assert t == a + ['\n'] + u;
    CutAt(a, '\n', u);
    assert IndexOf(t, '\n') == |a| && t[..|a|] == a && t[|a| + 1..] == u;
    assert u == g + ['\n'] + (ProducerReturn(a) + rest);
    CutAt(g, '\n', ProducerReturn(a) + rest);
    assert IndexOf(u, '\n') == |g| && u[..|g|] == g && u[|g| + 1..] == ProducerReturn(a) + rest;
    StripPrefixConcat(ProducerReturn(a), rest);
  }

  /** The producer methods `toProducer` writes read back as the annotation
      and the signature line of each model, in the order they were written. */
  lemma {:induction false} ProducerMethodsRoundTrip(ms: seq<ComponentModel>)
    requires forall m :: m in ms ==> ProducibleClass(m.componentClass)
    ensures ParseProducerMethods(ProducerMethods(ms) + ClosingText) == Some(ProducerEntries(ms))
  {
    if |ms| > 0 {
      var c := ms[0].componentClass;
      ProducerMethodsShape(ms);
      ProducerLinesOneLine(c);
      ParseProducerStep(FormatAnnotationClassName(c), ProducerSignature(c), ProducerMethods(ms[1..]) + ClosingText);
      ProducerMethodsRoundTrip(ms[1..]);
    }
  }

  /** `toProducer` has one producer method per model, in ascending order of
      simple class name, each producing the model's own annotation. */
  lemma ProducerRoundTrip(ms: seq<ComponentModel>)
    requires forall m :: m in ms ==> ProducibleClass(m.componentClass)
    ensures ParseProducer(ToProducer(ms)) == Some(ProducerEntries(OrderedModels(ms)))
    ensures SortedBy(OrderedModels(ms), SimpleName)
    ensures multiset(OrderedModels(ms)) == multiset(ms)
  {
    var ordered := OrderedModels(ms);
    forall m | m in ordered
      ensures ProducibleClass(m.componentClass)
    {
      assert m in multiset(ordered);
    }
    var t := ProducerMethods(ordered) + ClosingText;
    assert ToProducer(ms) == ProducerPreamble + t;
    StripPrefixConcat(ProducerPreamble, t);
    ProducerMethodsRoundTrip(ordered);
  }

  /** Every rendering of `v` other than Java null differs from `null`:
      numbers are never rendered as that word. */
  predicate WellRendered(v: Value)
  {
    && (v.DoubleVal? ==> v.doubleText != "null")
    && (v.OtherVal? ==> v.otherText != "null")
  }

  /** Reads a member default written for a member of type `t`. */
  function ParseDefault(text: string, t: JType): Option<Value>
  {
    if text == "null" then Some(Null)
    else match t
      case StringType =>
        if |text| >= 2 && text[0] == '"' && text[|text| - 1] == '"' then Some(Str(text[1..|text| - 1])) else None
      case ClassType =>
        if |text| >= 6 && text[|text| - 6..] == ".class" then Some(ClassRef(text[..|text| - 6])) else None
      case EnumType(n, _) =>
        var c :- StripPrefix(text, n + ".");
        Some(EnumConst(n, c))
      case WrapperType(w) =>
        if w == BooleanW then
          if text == "true" then Some(Bool(true)) else if text == "false" then Some(Bool(false)) else None
        else if w == FloatW then
          if |text| > 0 && text[|text| - 1] == 'f' then Some(FloatVal(text[..|text| - 1])) else None
        else if w == DoubleW then Some(DoubleVal(text))
        else Some(OtherVal(text))
      case OtherType(_) => None
  }

  /** `formatDefaultValue` loses nothing: the default of a member of an
      annotation type reads back as the value it was rendered from. */
  lemma DefaultRoundTrip(v: Value, t: JType)
    requires AnnotationType(t) && HasType(v, t) && WellRendered(v)
    ensures ParseDefault(FormatDefaultValue(v), t) == Some(v)
  {
    var text := FormatDefaultValue(v);
    match v
    case Null =>
    case Str(s) =>
      assert text[0] == '"' && "null"[0] == 'n';
    case Bool(b) =>
    case FloatVal(f) =>
      assert text[|text| - 1] == 'f' && "null"[3] == 'l';
    case DoubleVal(d) =>
    case EnumConst(n, c) =>
      assert text[|n|] == '.';
      assert '.' !in "null";
      StripPrefixConcat(n + ".", c);
    case ClassRef(n) =>
      assert text[|text| - 1] == 's' && "null"[3] == 'l';
    case OtherVal(o) =>
  }
}

=== FILE: generator.dfy ===
/** The build-time generator: which bean properties of a Vaadin component
    become members of its `...Properties` annotation, how member types and
    defaults are rendered, which custom members every annotation carries, and
    the text of the annotation and producer sources.

    Reflection is replaced by descriptions: a scanned class is given as its
    names, two `instanceof` flags and its bean properties; a bean property as
    its name, whether it has a write method, its type and what its read
    method's `getDefaultValue()` returns. */
module Generator {
  import opened Wrappers
  import opened JavaText
  import opened Sorting

  /** The classes in `primitiveWrapperClasses`. */
  datatype Wrapper = BooleanW | ByteW | CharacterW | ShortW | IntegerW | LongW | FloatW | DoubleW

  /** A property type as far as the generator tells types apart. `OtherType`
      covers primitive types such as `boolean` (whose class is not a wrapper
      class), arrays and every other class. */
  datatype JType =
    | WrapperType(wrapper: Wrapper)
    | StringType
    | ClassType
    | EnumType(enumName: string, constants: seq<string>)
    | OtherType(otherName: string)

  function WrapperClassName(w: Wrapper): string
  {
    match w
    case BooleanW => "java.lang.Boolean"
    case ByteW => "java.lang.Byte"
    case CharacterW => "java.lang.Character"
    case ShortW => "java.lang.Short"
    case IntegerW => "java.lang.Integer"
    case LongW => "java.lang.Long"
    case FloatW => "java.lang.Float"
    case DoubleW => "java.lang.Double"
  }

  /** `Class.getCanonicalName()`. */
  function CanonicalName(t: JType): string
  {
    match t
    case WrapperType(w) => WrapperClassName(w)
    case StringType => "java.lang.String"
    case ClassType => "java.lang.Class"
    case EnumType(n, _) => n
    case OtherType(n) => n
  }

  /** A default value as an `Object`: Java null, or a boxed value. Floating
      point and integral values are carried as their `String.valueOf` text. */
  datatype Value =
    | Null
    | Str(s: string)
    | Bool(b: bool)
    | FloatVal(floatText: string)
    | DoubleVal(doubleText: string)
    | EnumConst(enumName: string, constant: string)
    | ClassRef(className: string)
    | OtherVal(otherText: string)

  /** `v` is null or an instance of `t`. */
  predicate HasType(v: Value, t: JType)
  {
    match v
    case Null => true
    case Str(_) => t == StringType
    case Bool(_) => t == WrapperType(BooleanW)
    case FloatVal(_) => t == WrapperType(FloatW)
    case DoubleVal(_) => t == WrapperType(DoubleW)
    case EnumConst(n, c) => t.EnumType? && t.enumName == n && c in t.constants
    case ClassRef(_) => t == ClassType
    case OtherVal(_) => t.WrapperType? && t.wrapper !in {BooleanW, FloatW, DoubleW}
  }

  /** A `PropertyDescriptor`. `readMethodDefault` is `None` when the property
      has no read method, else what `getReadMethod().getDefaultValue()`
      returns. */
  datatype BeanProperty = BeanProperty(
    name: string,
    hasWriteMethod: bool,
    propertyType: JType,
    readMethodDefault: Option<Value>)

  /** One member of a generated annotation: type, name and default as text. */
  datatype ComponentProperty = ComponentProperty(typeName: string, name: string, defaultValue: string)

  /** A scanned component class: `getName()`, `getSimpleName()`,
      `getCanonicalName()`, and whether an instance is an `HtmlComponent`
      and a `Text`. */
  datatype ComponentClass = ComponentClass(
    name: string,
    simpleName: string,
    canonicalName: string,
    isHtmlComponent: bool,
    isText: bool)

  datatype ComponentModel = ComponentModel(componentClass: ComponentClass, properties: seq<ComponentProperty>)

  /** The exceptions that escape `main`. */
  datatype GeneratorError = NullPointer | ArrayIndexOutOfBounds

  const HtmlComponentClassName := "com.vaadin.flow.component.HtmlComponent"
  const IgnoredStringReference := "org.vaadin.addon.cdiproperties.ComponentConfigurator.IGNORED_STRING"

  const ExcludedClasses: set<string> := {}
  const ExcludedProperties: set<string> :=
    {"UI", "componentError", "connectorEnabled", "connectorId", "width",
     "height", "stateType", "type", "styleName", "timeFormat"}

  /** Names of the custom members every annotation carries. */
  const AlwaysCustomNames: set<string> :=
    {"width", "height", "implementation", "captionKey", "sizeFull",
     "sizeUndefined", "localized", "styleName"}

  /** Types an annotation member may be generated for. */
  predicate AnnotationType(t: JType)
  {
    t.WrapperType? || t.EnumType? || t == StringType || t == ClassType
  }

  /** The selection rule of `main`: a bean property becomes an annotation
      member when it is writable, not excluded and of an annotation type. */
  predicate BecomesMember(p: BeanProperty)
  {
    p.hasWriteMethod && p.name !in ExcludedProperties && AnnotationType(p.propertyType)
  }

  /** The types `getDefaultValue` invents a default for. */
  predicate HasFallbackDefault(t: JType)
  {
    t.EnumType? || t == WrapperType(BooleanW) || t == WrapperType(DoubleW)
  }

  /** `getDefaultValue`: the read method's default, or, when that is null, the
      first enum constant, `false` for Boolean, `0.0` for Double and null for
      everything else. A missing read method or an enum without constants
      throws. */
  function GetDefaultValue(p: BeanProperty): (r: Result<Value, GeneratorError>)
    ensures r == Failure(NullPointer) <==> p.readMethodDefault.None?
    ensures r == Failure(ArrayIndexOutOfBounds) <==>
      p.readMethodDefault == Some(Null) && p.propertyType.EnumType? && |p.propertyType.constants| == 0
    ensures p.readMethodDefault.Some? && p.readMethodDefault.value != Null ==>
      r == Success(p.readMethodDefault.value)
    ensures r.Success? && p.readMethodDefault == Some(Null) ==>
      (r.value != Null <==> HasFallbackDefault(p.propertyType)) && HasType(r.value, p.propertyType)
    ensures r.Success? && p.readMethodDefault == Some(Null) && p.propertyType.EnumType? ==>
      r.value == EnumConst(p.propertyType.enumName, p.propertyType.constants[0])
    ensures r.Success? && p.readMethodDefault == Some(Null) && p.propertyType == WrapperType(BooleanW) ==>
      r.value == Bool(false)
    ensures r.Success? && p.readMethodDefault == Some(Null) && p.propertyType == WrapperType(DoubleW) ==>
      r.value == DoubleVal("0.0")
  {
    match p.readMethodDefault
    case None => Failure(NullPointer)
    case Some(declared) =>
      if declared != Null then Success(declared)
      else match p.propertyType
        case EnumType(n, cs) =>
          if |cs| == 0 then Failure(ArrayIndexOutOfBounds) else Success(EnumConst(n, cs[0]))
        case WrapperType(BooleanW) => Success(Bool(false))
        case WrapperType(DoubleW) => Success(DoubleVal("0.0"))
        case _ => Success(Null)
  }

  const UnboxedKeywords: set<string> := {"boolean", "int", "float", "double"}

  /** The wrapper class a primitive keyword stands for; other names as they are. */
  function BoxedName(s: string): string
  {
    if s == "boolean" then "java.lang.Boolean"
    else if s == "int" then "java.lang.Integer"
    else if s == "float" then "java.lang.Float"
    else if s == "double" then "java.lang.Double"
    else s
  }

  /** `formatType`: Boolean, Integer, Float and Double become their primitive
      keywords; every other type keeps its canonical name. */
  function FormatType(t: JType): (r: string)
    ensures t in {WrapperType(BooleanW), WrapperType(IntegerW), WrapperType(FloatW), WrapperType(DoubleW)}
      <==> r in UnboxedKeywords && r != CanonicalName(t)
    ensures CanonicalName(t) !in UnboxedKeywords ==> BoxedName(r) == CanonicalName(t)
  {
    match t
    case WrapperType(BooleanW) => "boolean"
    case WrapperType(IntegerW) => "int"
    case WrapperType(FloatW) => "float"
    case WrapperType(DoubleW) => "double"
    case _ => CanonicalName(t)
  }

  /** `formatDefaultValue`: the Java source text of a default value. */
  function FormatDefaultValue(v: Value): (r: string)
    ensures v == Null ==> r == "null"
    ensures v.Str? ==> |r| == |v.s| + 2 && r[0] == '"' && r[|r| - 1] == '"' && r[1..|r| - 1] == v.s
    ensures v.FloatVal? ==> |r| > 0 && r[|r| - 1] == 'f' && r[..|r| - 1] == v.floatText
    ensures v.EnumConst? ==> v.enumName + "." <= r && r[|v.enumName| + 1..] == v.constant
    ensures v.ClassRef? ==> |r| >= 6 && r[|r| - 6..] == ".class" && r[..|r| - 6] == v.className
  {
    match v
    case Null => "null"
    case Str(s) => "\"" + s + "\""
    case FloatVal(text) => text + "f"
    case EnumConst(n, c) => n + "." + c
    case ClassRef(n) => n + ".class"
    case Bool(b) => if b then "true" else "false"
    case DoubleVal(text) => text
    case OtherVal(text) => text
  }

  /** The member `main` builds for a bean property it has selected. */
  function MemberOf(p: BeanProperty): (r: Result<ComponentProperty, GeneratorError>)
    ensures r.Success? <==> GetDefaultValue(p).Success?
    ensures r.Failure? ==> r.error == GetDefaultValue(p).error
    ensures r.Success? ==> r.value.name == p.name && r.value.typeName == FormatType(p.propertyType)
    ensures r.Success? && p.propertyType == StringType ==> r.value.defaultValue == IgnoredStringReference
    ensures r.Success? && p.propertyType != StringType ==>
      r.value.defaultValue == FormatDefaultValue(GetDefaultValue(p).value)
  {
    var d :- GetDefaultValue(p);
    var text := if p.propertyType == StringType then IgnoredStringReference else FormatDefaultValue(d);
    Success(ComponentProperty(FormatType(p.propertyType), p.name, text))
  }

  /** The selected property at `i` is the first whose member cannot be built. */
  predicate FirstFailure(ps: seq<BeanProperty>, i: int)
  {
    && 0 <= i < |ps| && BecomesMember(ps[i]) && MemberOf(ps[i]).Failure?
    && forall j :: 0 <= j < i ==> !(BecomesMember(ps[j]) && MemberOf(ps[j]).Failure?)
  }

  /** The descriptors `main` turns into members, in descriptor order. */
  function Selected(ps: seq<BeanProperty>): (r: seq<BeanProperty>)
    ensures forall p :: p in r <==> p in ps && BecomesMember(p)
  {
    if |ps| == 0 then []
    else if BecomesMember(ps[0]) then [ps[0]] + Selected(ps[1..])
    else Selected(ps[1..])
  }

  /** The bean-derived members of one component, in descriptor order. The
      descriptor loop stops at the first selected property whose default
      value cannot be read, and that property's exception escapes. */
  function BeanMembers(ps: seq<BeanProperty>): (r: Result<seq<ComponentProperty>, GeneratorError>)
    ensures r.Failure? <==> exists p :: p in ps && BecomesMember(p) && MemberOf(p).Failure?
    ensures r.Failure? ==> exists i :: FirstFailure(ps, i) && r.error == MemberOf(ps[i]).error
    ensures r.Success? ==> |r.value| <= |ps|
    ensures r.Success? ==> forall m :: m in r.value ==>
      exists p :: p in ps && BecomesMember(p) && MemberOf(p) == Success(m)
    ensures r.Success? ==> forall p :: p in ps && BecomesMember(p) ==>
      MemberOf(p).Success? && MemberOf(p).value in r.value
    ensures r.Success? ==> |r.value| == |Selected(ps)|
    ensures r.Success? ==> forall i :: 0 <= i < |r.value| ==> MemberOf(Selected(ps)[i]) == Success(r.value[i])
  {
    if |ps| == 0 then Success([])
    else if BecomesMember(ps[0]) then
      var m :- MemberOf(ps[0]);
      var rest :- BeanMembers(ps[1..]);
      FirstFailureLater(ps);
      SelectedMembers(ps, m, rest);
      Success([m] + rest)
    else
      FirstFailureLater(ps);
      var rest :- BeanMembers(ps[1..]);
      assert Selected(ps) == Selected(ps[1..]);
      Success(rest)
  }

  /** A selected first property's member goes in front of the members of
      the rest. */
  lemma SelectedMembers(ps: seq<BeanProperty>, m: ComponentProperty, rest: seq<ComponentProperty>)
    requires |ps| > 0 && BecomesMember(ps[0]) && MemberOf(ps[0]) == Success(m)
    requires |rest| == |Selected(ps[1..])|
    requires forall i :: 0 <= i < |rest| ==> MemberOf(Selected(ps[1..])[i]) == Success(rest[i])
    ensures |[m] + rest| == |Selected(ps)|
    ensures forall i :: 0 <= i < |[m] + rest| ==> MemberOf(Selected(ps)[i]) == Success(([m] + rest)[i])
  {
    var tail := Selected(ps[1..]);
    var sel := Selected(ps);
    assert sel == [ps[0]] + tail;
    forall i | 0 <= i < |[m] + rest|
      ensures MemberOf(sel[i]) == Success(([m] + rest)[i])
    {
      if i > 0 {
        assert sel[i] == tail[i - 1];
      }
    }
  }

  /** When the first property builds, the first failure of the rest is the
      first failure of the whole list. */
  lemma FirstFailureLater(ps: seq<BeanProperty>)
    requires |ps| > 0 && !(BecomesMember(ps[0]) && MemberOf(ps[0]).Failure?)
    ensures forall i :: FirstFailure(ps[1..], i) ==> FirstFailure(ps, i + 1)
  {
    forall i | FirstFailure(ps[1..], i)
      ensures FirstFailure(ps, i + 1)
    {
      forall j | 0 <= j < i + 1
        ensures !(BecomesMember(ps[j]) && MemberOf(ps[j]).Failure?)
      {
        if j > 0 {
          assert ps[j] == ps[1..][j - 1];
        }
      }
    }
  }

  function MemberNames(ms: seq<ComponentProperty>): set<string>
  {
    set m | m in ms :: m.name
  }

  lemma MemberNamesConcat(a: seq<ComponentProperty>, b: seq<ComponentProperty>)
    ensures MemberNames(a + b) == MemberNames(a) + MemberNames(b)
  {
  }

  function HtmlCustomNames(c: ComponentClass): set<string>
  {
    if c.isHtmlComponent then {"widthValue", "heightValue"} else {}
  }

  function TextCustomNames(c: ComponentClass): set<string>
  {
    if c.isText then {"text"} else {}
  }

  function HtmlCustomProperties(c: ComponentClass, widthValueDefault: string, heightValueDefault: string)
    : (r: seq<ComponentProperty>)
    ensures MemberNames(r) == HtmlCustomNames(c)
  {
    if c.isHtmlComponent then
      [ComponentProperty("float", "widthValue", widthValueDefault),
       ComponentProperty("float", "heightValue", heightValueDefault)]
    else []
  }

  function CommonCustomProperties(c: ComponentClass): (r: seq<ComponentProperty>)
    ensures MemberNames(r) == AlwaysCustomNames
    ensures ComponentProperty("Class", "implementation", FormatDefaultValue(ClassRef(c.canonicalName))) in r
  {
    [ComponentProperty("String", "width", IgnoredStringReference),
     ComponentProperty("String", "height", IgnoredStringReference),
     ComponentProperty("Class", "implementation", FormatDefaultValue(ClassRef(c.canonicalName))),
     ComponentProperty("String", "captionKey", IgnoredStringReference),
     ComponentProperty("boolean", "sizeFull", "false"),
     ComponentProperty("boolean", "sizeUndefined", "false"),
     ComponentProperty("boolean", "localized", "true"),
     ComponentProperty("String[]", "styleName", "{}")]
  }

  function TextCustomProperties(c: ComponentClass): (r: seq<ComponentProperty>)
    ensures MemberNames(r) == TextCustomNames(c)
  {
    if c.isText then [ComponentProperty("String", "text", IgnoredStringReference)] else []
  }

  /** `getCustomProperties`. `widthValueDefault` and `heightValueDefault` are
      the rendered `getWidth()`/`getHeight()` of an `HtmlComponent` instance. */
  function CustomProperties(c: ComponentClass, widthValueDefault: string, heightValueDefault: string)
    : (r: seq<ComponentProperty>)
    ensures MemberNames(r) == HtmlCustomNames(c) + AlwaysCustomNames + TextCustomNames(c)
    ensures ComponentProperty("Class", "implementation", FormatDefaultValue(ClassRef(c.canonicalName))) in r
  {
    var html := HtmlCustomProperties(c, widthValueDefault, heightValueDefault);
    MemberNamesConcat(html, CommonCustomProperties(c));
    MemberNamesConcat(html + CommonCustomProperties(c), TextCustomProperties(c));
    html + CommonCustomProperties(c) + TextCustomProperties(c)
  }

  /** Bean-derived members never take the names of the sizing and style
      custom members, because those names are excluded. */
  lemma BeanMembersAvoidSizeAndStyle(ps: seq<BeanProperty>)
    requires BeanMembers(ps).Success?
    ensures forall m :: m in BeanMembers(ps).value ==> m.name !in {"width", "height", "styleName"}
  {
  }

  /** `formatAnnotationClassName`. */
  function FormatAnnotationClassName(c: ComponentClass): string
  {
    (if c.name == HtmlComponentClassName then "" else c.simpleName) + "Properties"
  }

  /** Annotation names are `<simple name>Properties`, exactly `Properties` for
      `HtmlComponent` itself, so classes with different simple names never
      share an annotation. */
  lemma AnnotationClassNames(a: ComponentClass, b: ComponentClass)
    ensures a.name == HtmlComponentClassName ==> FormatAnnotationClassName(a) == "Properties"
    ensures a.name != HtmlComponentClassName ==>
      a.simpleName <= FormatAnnotationClassName(a)
      && FormatAnnotationClassName(a)[|a.simpleName|..] == "Properties"
    ensures (a.name != HtmlComponentClassName && b.name != HtmlComponentClassName
             && a.simpleName != b.simpleName) ==>
              FormatAnnotationClassName(a) != FormatAnnotationClassName(b)
  {
    if a.name != HtmlComponentClassName && b.name != HtmlComponentClassName
      && FormatAnnotationClassName(a) == FormatAnnotationClassName(b) {
      var x := FormatAnnotationClassName(a);
      assert |a.simpleName| == |x| - 10 == |b.simpleName|;
      assert a.simpleName == x[..|x| - 10] == b.simpleName;
    }
  }

  function PropertyName(p: ComponentProperty): string
  {
    p.name
  }

  function SimpleName(m: ComponentModel): string
  {
    m.componentClass.simpleName
  }

  /** The declaration line of an annotation member. */
  function MemberDeclaration(p: ComponentProperty): string
  {
    p.typeName + " " + p.name + "() default " + p.defaultValue + ";"
  }

  /** `ComponentProperty.toAnnotationMethod`. */
  function ToAnnotationMethod(p: ComponentProperty): string
  {
    "\n@Nonbinding\n" + MemberDeclaration(p)
  }

  /** The member block of `toAnnotation`, one newline-prefixed member each. */
  function AnnotationMembers(ps: seq<ComponentProperty>): string
  {
    if |ps| == 0 then "" else "\n" + ToAnnotationMethod(ps[0]) + AnnotationMembers(ps[1..])
  }

  const AnnotationPreamble :=
    "package org.vaadin.addon.cdiproperties.annotation;\n"
    + "import javax.inject.*;\n"
    + "import java.lang.annotation.*;\n"
    + "import javax.enterprise.util.*;\n"
    + "\n\n@Qualifier\n"
    + "@Target({ ElementType.METHOD, ElementType.PARAMETER, ElementType.FIELD })\n"
    + "@Retention(RetentionPolicy.RUNTIME)\n"
    + "public @interface "

  /** The members in the order `toAnnotation` emits them. */
  function OrderedProperties(m: ComponentModel): seq<ComponentProperty>
  {
    SortBy(m.properties, PropertyName)
  }

  /** `ComponentModel.toAnnotation`. */
  function ToAnnotation(m: ComponentModel): string
  {
    AnnotationPreamble + FormatAnnotationClassName(m.componentClass) + " {"
    + AnnotationMembers(OrderedProperties(m)) + "\n\n}"
  }

  /** The signature line of a producer method. */
  function ProducerSignature(c: ComponentClass): string
  {
    "public " + c.name + " create" + c.simpleName + "With" + FormatAnnotationClassName(c)
    + "(final InjectionPoint ip) throws Exception {"
  }

  /** `ComponentModel.toProducerMethod`. */
  function ToProducerMethod(c: ComponentClass): string
  {
    "@Produces\n@" + FormatAnnotationClassName(c) + "\n" + ProducerSignature(c) + "\n"
    + "\treturn cc.getComponent(" + FormatAnnotationClassName(c) + ".class, ip);\n}\n\n"
  }

  function ProducerMethods(ms: seq<ComponentModel>): string
  {
    if |ms| == 0 then "" else ToProducerMethod(ms[0].componentClass) + ProducerMethods(ms[1..])
  }

  const ProducerPreamble :=
    "package org.vaadin.addon.cdiproperties.producer;\n"
    + "import javax.enterprise.inject.*;\n"
    + "import javax.inject.*;\n"
    + "import org.vaadin.addon.cdiproperties.ComponentConfigurator;\n"
    + "import javax.enterprise.inject.spi.*;\n"
    + "import javax.enterprise.context.SessionScoped;\n"
    + "import org.vaadin.addon.cdiproperties.annotation.*;\n"
    + "\n\n@SessionScoped\n"
    + "public class ComponentProducers implements java.io.Serializable {\n\n"
    + "@Inject\n"
    + "private ComponentConfigurator cc;\n\n"

  /** The models in the order `toProducer` emits their producer methods. */
  function OrderedModels(ms: seq<ComponentModel>): seq<ComponentModel>
  {
    SortBy(ms, SimpleName)
  }

  /** `toProducer`. */
  function ToProducer(ms: seq<ComponentModel>): string
  {
    ProducerPreamble + ProducerMethods(OrderedModels(ms)) + "\n\n}"
  }

  /** One class found by the classpath scan. `instantiable` says whether
      `newInstance()` succeeded. */
  datatype ScannedClass = ScannedClass(
    componentClass: ComponentClass,
    isConcrete: bool,
    instantiable: bool,
    beanProperties: seq<BeanProperty>,
    widthValueDefault: string,
    heightValueDefault: string)

  predicate Generates(s: ScannedClass)
  {
    s.isConcrete && s.componentClass.name !in ExcludedClasses && s.instantiable
  }

  /** The model `main` builds for a class it generates: bean members followed
      by the custom members. */
  function BuildModel(s: ScannedClass): (r: Result<ComponentModel, GeneratorError>)
    ensures r.Success? <==> BeanMembers(s.beanProperties).Success?
    ensures r.Success? ==> r.value.componentClass == s.componentClass
    ensures r.Success? ==>
      r.value.properties == BeanMembers(s.beanProperties).value
                            + CustomProperties(s.componentClass, s.widthValueDefault, s.heightValueDefault)
  {
    var members :- BeanMembers(s.beanProperties);
    Success(ComponentModel(s.componentClass,
      members + CustomProperties(s.componentClass, s.widthValueDefault, s.heightValueDefault)))
  }

  /** Names of the bean properties the selection rule keeps. */
  function SelectedNames(ps: seq<BeanProperty>): set<string>
  {
    set p | p in ps && BecomesMember(p) :: p.name
  }

  /** The bean-derived members are named exactly after the selected bean
      properties. */
  lemma BeanMemberNames(ps: seq<BeanProperty>)
    requires BeanMembers(ps).Success?
    ensures MemberNames(BeanMembers(ps).value) == SelectedNames(ps)
  {
    var members := BeanMembers(ps).value;
    forall n | n in SelectedNames(ps)
      ensures n in MemberNames(members)
    {
      var p :| p in ps && BecomesMember(p) && p.name == n;
      assert MemberOf(p).value in members;
    }
    forall n | n in MemberNames(members)
      ensures n in SelectedNames(ps)
    {
      var m :| m in members && m.name == n;
      var p :| p in ps && BecomesMember(p) && MemberOf(p) == Success(m);
    }
  }

  /** A generated annotation has a member for exactly the selected bean
      properties and the custom members of its class. */
  lemma ModelMemberNames(s: ScannedClass)
    requires BuildModel(s).Success?
    ensures MemberNames(BuildModel(s).value.properties) ==
      SelectedNames(s.beanProperties)
      + HtmlCustomNames(s.componentClass) + AlwaysCustomNames + TextCustomNames(s.componentClass)
  {
    var members := BeanMembers(s.beanProperties).value;
    var custom := CustomProperties(s.componentClass, s.widthValueDefault, s.heightValueDefault);
    MemberNamesConcat(members, custom);
    BeanMemberNames(s.beanProperties);
    assert BuildModel(s).value.properties == members + custom;
    UnionRegroup(SelectedNames(s.beanProperties), HtmlCustomNames(s.componentClass), AlwaysCustomNames,
      TextCustomNames(s.componentClass));
  }

  lemma UnionRegroup(a: set<string>, b: set<string>, c: set<string>, d: set<string>)
    ensures a + (b + c + d) == a + b + c + d
  {
  }

  /** What a generated file holds: the annotation of one model, or the
      producer class for all the models. `Text` renders it. */
  datatype Content = AnnotationOf(model: ComponentModel) | ProducersOf(models: seq<ComponentModel>)

  /** The Java source text of a generated file. */
  function Text(c: Content): string
  {
    match c
    case AnnotationOf(m) => ToAnnotation(m)
    case ProducersOf(ms) => ToProducer(ms)
  }

  datatype SourceFile = SourceFile(path: string, content: Content)

  /** `<dir>/<annotation name>.java`, where `main` writes the annotation of `c`. */
  function AnnotationPath(dir: string, c: ComponentClass): string
  {
    dir + "/" + FormatAnnotationClassName(c) + ".java"
  }

  /** The file `main` writes for one model: its annotation path, holding
      `toAnnotation` of the model. */
  function AnnotationFile(m: ComponentModel, dir: string): SourceFile
  {
    SourceFile(AnnotationPath(dir, m.componentClass), AnnotationOf(m))
  }

  function CountGenerating(scanned: seq<ScannedClass>): nat
  {
    if |scanned| == 0 then 0
    else (if Generates(scanned[0]) then 1 else 0) + CountGenerating(scanned[1..])
  }

  /** The outcome of `main`'s scan loop: the models built, one per generated
      class in scan order, and the exception that stopped the loop, if any. */
  datatype Scan = Scan(models: seq<ComponentModel>, thrown: Option<GeneratorError>)

  /** The scan stops at `i`: the class there is the first generated class
      whose model cannot be built, its exception is the scan's, and the
      models of the generated classes before it have been built. */
  predicate StopsAt(scanned: seq<ScannedClass>, i: int, sc: Scan)
  {
    && 0 <= i < |scanned| && Generates(scanned[i]) && BuildModel(scanned[i]).Failure?
    && (forall j :: 0 <= j < i ==> !(Generates(scanned[j]) && BuildModel(scanned[j]).Failure?))
    && sc.thrown == Some(BuildModel(scanned[i]).error)
    && |sc.models| == CountGenerating(scanned[..i])
    && BuiltBefore(scanned, i, sc.models)
  }

  /** Each generated class before `i` has its own model in `models`, at the
      position that counts the generated classes before it. */
  predicate BuiltBefore(scanned: seq<ScannedClass>, i: int, models: seq<ComponentModel>)
    requires 0 <= i <= |scanned|
  {
    forall j :: 0 <= j < i && Generates(scanned[j]) ==>
      && CountGenerating(scanned[..j]) < |models|
      && BuildModel(scanned[j]).Success?
      && models[CountGenerating(scanned[..j])] == BuildModel(scanned[j]).value
  }

  /** The model of a generated first class is the first model. */
  lemma BuiltFirst(scanned: seq<ScannedClass>, models: seq<ComponentModel>)
    requires |scanned| > 0 && Generates(scanned[0]) && BuildModel(scanned[0]).Success?
    ensures var all := [BuildModel(scanned[0]).value] + models;
      CountGenerating(scanned[..0]) < |all| && all[CountGenerating(scanned[..0])] == BuildModel(scanned[0]).value
  {
    assert scanned[..0] == [];
  }

  /** A later class keeps its model, shifted by the first class's models. */
  lemma BuiltShifted(scanned: seq<ScannedClass>, head: seq<ComponentModel>, models: seq<ComponentModel>, j: nat)
    requires 0 < j < |scanned|
    requires |head| == if Generates(scanned[0]) then 1 else 0
    requires CountGenerating(scanned[1..][..j - 1]) < |models|
    ensures CountGenerating(scanned[..j]) < |head + models|
    ensures (head + models)[CountGenerating(scanned[..j])] == models[CountGenerating(scanned[1..][..j - 1])]
  {
    CountPrefix(scanned, j);
  }

  /** The models before the stop of the rest of the scan, behind the model
      of a first class that builds, or behind nothing for a skipped one. */
  lemma BuiltBeforeLater(scanned: seq<ScannedClass>, head: seq<ComponentModel>, i: nat, models: seq<ComponentModel>)
    requires |scanned| > 0 && !(Generates(scanned[0]) && BuildModel(scanned[0]).Failure?)
    requires head == if Generates(scanned[0]) then [BuildModel(scanned[0]).value] else []
    requires i < |scanned| - 1 && BuiltBefore(scanned[1..], i, models)
    ensures BuiltBefore(scanned, i + 1, head + models)
  {
    forall j | 0 <= j < i + 1 && Generates(scanned[j])
      ensures && CountGenerating(scanned[..j]) < |head + models|
              && BuildModel(scanned[j]).Success?
              && (head + models)[CountGenerating(scanned[..j])] == BuildModel(scanned[j]).value
    {
      if j > 0 {
        assert scanned[1..][j - 1] == scanned[j];
        BuiltShifted(scanned, head, models, j);
      } else {
        BuiltFirst(scanned, models);
      }
    }
  }

  /** Where the scan of the rest stops, the scan behind a first class that
      builds or is skipped stops one place later. */
  lemma StopsLater(scanned: seq<ScannedClass>, head: seq<ComponentModel>, sc: Scan)
    requires |scanned| > 0 && !(Generates(scanned[0]) && BuildModel(scanned[0]).Failure?)
    requires head == if Generates(scanned[0]) then [BuildModel(scanned[0]).value] else []
    requires sc.thrown.Some? ==> exists i :: StopsAt(scanned[1..], i, sc)
    ensures sc.thrown.Some? ==> exists i :: StopsAt(scanned, i, Scan(head + sc.models, sc.thrown))
  {
    if sc.thrown.Some? {
      var i :| StopsAt(scanned[1..], i, sc);
      CountPrefix(scanned, i + 1);
      forall j | 0 <= j < i + 1
        ensures !(Generates(scanned[j]) && BuildModel(scanned[j]).Failure?)
      {
        if j > 0 {
          assert scanned[j] == scanned[1..][j - 1];
        }
      }
      assert scanned[1..][i] == scanned[i + 1];
      BuiltBeforeLater(scanned, head, i, sc.models);
      assert StopsAt(scanned, i + 1, Scan(head + sc.models, sc.thrown));
    }
  }

  /** `main`'s loop over the scanned classes up to the first exception. */
  function ScanClasses(scanned: seq<ScannedClass>): (r: Scan)
    ensures r.thrown.None? <==> forall s :: s in scanned && Generates(s) ==> BuildModel(s).Success?
    ensures r.thrown.None? ==> |r.models| == CountGenerating(scanned)
    ensures r.thrown.None? ==> forall s :: s in scanned && Generates(s) ==>
      BuildModel(s).Success? && BuildModel(s).value in r.models
    ensures r.thrown.Some? ==> exists i :: StopsAt(scanned, i, r)
  {
    if |scanned| == 0 then Scan([], None)
    else
      var rest := ScanClasses(scanned[1..]);
      assert forall s :: s in scanned <==> s == scanned[0] || s in scanned[1..];
      if !Generates(scanned[0]) then
        StopsLater(scanned, [], rest);
        assert [] + rest.models == rest.models;
        rest
      else match BuildModel(scanned[0])
        case Failure(e) =>
          assert scanned[..0] == [];
          assert StopsAt(scanned, 0, Scan([], Some(e)));
          Scan([], Some(e))
        case Success(m) =>
          StopsLater(scanned, [m], rest);
          Scan([m] + rest.models, rest.thrown)
  }

  /** Every model of the scan was built from a class `main` generates for. */
  lemma {:induction false} ScanModelsBuilt(scanned: seq<ScannedClass>)
    ensures forall m :: m in ScanClasses(scanned).models ==>
      exists s :: s in scanned && Generates(s) && BuildModel(s) == Success(m)
  {
    if |scanned| > 0 {
      ScanModelsBuilt(scanned[1..]);
      forall m | m in ScanClasses(scanned).models
        ensures exists s :: s in scanned && Generates(s) && BuildModel(s) == Success(m)
      {
        if m in ScanClasses(scanned[1..]).models {
          var s :| s in scanned[1..] && Generates(s) && BuildModel(s) == Success(m);
          assert s in scanned;
        } else {
          assert scanned[0] in scanned;
        }
      }
    }
  }

  /** What a run of `main` leaves behind: the files written, then the
      exception that ended it, if one did. */
  datatype Run = Run(written: seq<SourceFile>, thrown: Option<GeneratorError>)

  const ProducerFileName := "/ComponentProducers.java"

  /** Counting the generated classes of a prefix one class at a time. */
  lemma CountPrefix(scanned: seq<ScannedClass>, i: nat)
    requires 0 < i <= |scanned|
    ensures CountGenerating(scanned[..i]) ==
      (if Generates(scanned[0]) then 1 else 0) + CountGenerating(scanned[1..][..i - 1])
  {
    assert scanned[..i][0] == scanned[0];
    assert scanned[..i][1..] == scanned[1..][..i - 1];
  }

  /** A class `main` skips adds nothing to the scan. */
  lemma ScanSkip(scanned: seq<ScannedClass>)
    requires |scanned| > 0 && !Generates(scanned[0])
    ensures ScanClasses(scanned) == ScanClasses(scanned[1..])
  {
  }

  /** A complete scan starts with the model of a generated first class. */
  lemma ScanGenerated(scanned: seq<ScannedClass>)
    requires |scanned| > 0 && Generates(scanned[0]) && ScanClasses(scanned).thrown.None?
    ensures BuildModel(scanned[0]).Success?
    ensures ScanClasses(scanned[1..]).thrown.None?
    ensures ScanClasses(scanned).models == [BuildModel(scanned[0]).value] + ScanClasses(scanned[1..]).models
  {
  }

  /** The position of one class's model, from its position in the scan of
      the rest. */
  lemma ScanModelStep(scanned: seq<ScannedClass>, i: nat)
    requires |scanned| > 0 && ScanClasses(scanned).thrown.None?
    requires i < |scanned| && Generates(scanned[i])
    requires i > 0 ==>
      && CountGenerating(scanned[1..][..i - 1]) < |ScanClasses(scanned[1..]).models|
      && BuildModel(scanned[1..][i - 1]).Success?
      && ScanClasses(scanned[1..]).models[CountGenerating(scanned[1..][..i - 1])] == BuildModel(scanned[1..][i - 1]).value
    ensures && CountGenerating(scanned[..i]) < |ScanClasses(scanned).models|
            && BuildModel(scanned[i]).Success?
            && ScanClasses(scanned).models[CountGenerating(scanned[..i])] == BuildModel(scanned[i]).value
  {
    if Generates(scanned[0]) {
      ScanGenerated(scanned);
    } else {
      ScanSkip(scanned);
    }
    if i > 0 {
      CountPrefix(scanned, i);
      assert scanned[1..][i - 1] == scanned[i];
    }
  }

  /** A complete scan holds one model per generated class, in scan order:
      the class at `i` has the model at the position that counts the
      generated classes before it. */
  lemma {:induction false} ScanModelsInOrder(scanned: seq<ScannedClass>)
    requires ScanClasses(scanned).thrown.None?
    ensures forall i :: 0 <= i < |scanned| && Generates(scanned[i]) ==>
      && CountGenerating(scanned[..i]) < |ScanClasses(scanned).models|
      && BuildModel(scanned[i]).Success?
      && ScanClasses(scanned).models[CountGenerating(scanned[..i])] == BuildModel(scanned[i]).value
  {
    if |scanned| > 0 {
      if Generates(scanned[0]) {
        ScanGenerated(scanned);
      } else {
        ScanSkip(scanned);
      }
      ScanModelsInOrder(scanned[1..]);
      forall i | 0 <= i < |scanned| && Generates(scanned[i])
        ensures && CountGenerating(scanned[..i]) < |ScanClasses(scanned).models|
                && BuildModel(scanned[i]).Success?
                && ScanClasses(scanned).models[CountGenerating(scanned[..i])] == BuildModel(scanned[i]).value
      {
        if i > 0 {
          assert Generates(scanned[1..][i - 1]);
        }
        ScanModelStep(scanned, i);
      }
    }
  }

  /** The annotation files for `models`, in order. */
  function AnnotationFiles(models: seq<ComponentModel>, dir: string): (r: seq<SourceFile>)
    ensures |r| == |models|
    ensures forall i :: 0 <= i < |r| ==> r[i] == AnnotationFile(models[i], dir)
  {
    seq(|models|, i requires 0 <= i < |models| => AnnotationFile(models[i], dir))
  }

  /** `path` is the annotation file of some class `main` generates for. */
  predicate GeneratedPath(scanned: seq<ScannedClass>, dir: string, path: string)
  {
    exists s :: s in scanned && Generates(s) && path == AnnotationPath(dir, s.componentClass)
  }

  /** Every annotation file of a scan belongs to a class `main` generates for. */
  lemma ScanFilesGenerated(scanned: seq<ScannedClass>, dir: string)
    ensures forall i :: 0 <= i < |ScanClasses(scanned).models| ==>
      GeneratedPath(scanned, dir, AnnotationFiles(ScanClasses(scanned).models, dir)[i].path)
  {
    var models := ScanClasses(scanned).models;
    var files := AnnotationFiles(models, dir);
    ScanModelsBuilt(scanned);
    forall i | 0 <= i < |files|
      ensures GeneratedPath(scanned, dir, files[i].path)
    {
      assert models[i] in models;
      var s :| s in scanned && Generates(s) && BuildModel(s) == Success(models[i]);
      assert s.componentClass == models[i].componentClass;
    }
  }

  /** `main(args)` with `args[0] == annotationDir` and `args[1] == producerDir`:
      the annotation file of each model, in the order the scan builds them,
      then the producer file for all the models. An exception in the scan
      escapes `main` before the producer file is written. */
  function Main(scanned: seq<ScannedClass>, annotationDir: string, producerDir: string): (r: Run)
    ensures r.thrown == ScanClasses(scanned).thrown
    ensures |r.written| == |ScanClasses(scanned).models| + (if r.thrown.None? then 1 else 0)
    ensures forall i :: 0 <= i < |ScanClasses(scanned).models| ==>
      r.written[i] == AnnotationFile(ScanClasses(scanned).models[i], annotationDir)
    ensures r.thrown.None? ==>
      r.written[|r.written| - 1] == ProducerFile(ScanClasses(scanned).models, producerDir)
  {
    var scan := ScanClasses(scanned);
    var files := AnnotationFiles(scan.models, annotationDir);
    if scan.thrown.Some? then Run(files, scan.thrown)
    else
      var producer := ProducerFile(scan.models, producerDir);
      AppendOne(files, producer);
      Run(files + [producer], None)
  }

  /** `main` ends without an exception exactly when every class it generates
      for builds; it then writes one annotation file per such class and the
      producer file `<args[1]>/ComponentProducers.java` last. */
  lemma MainCompletes(scanned: seq<ScannedClass>, annotationDir: string, producerDir: string)
    ensures var r := Main(scanned, annotationDir, producerDir);
      && (r.thrown.None? <==> forall s :: s in scanned && Generates(s) ==> BuildModel(s).Success?)
      && (r.thrown.None? ==> |r.written| == CountGenerating(scanned) + 1)
      && (r.thrown.None? ==> r.written[|r.written| - 1].path == producerDir + ProducerFileName)
  {
  }

  /** An exception ends `main` at the first generated class whose model
      cannot be built: it is that class's exception, and the annotation
      files written before it are those of the generated classes ahead of
      it, each at its scan-order position. */
  lemma MainStops(scanned: seq<ScannedClass>, annotationDir: string, producerDir: string)
    requires Main(scanned, annotationDir, producerDir).thrown.Some?
    ensures var r := Main(scanned, annotationDir, producerDir);
      exists i :: && 0 <= i < |scanned| && Generates(scanned[i]) && BuildModel(scanned[i]).Failure?
                  && (forall j :: 0 <= j < i ==> !(Generates(scanned[j]) && BuildModel(scanned[j]).Failure?))
                  && r.thrown == Some(BuildModel(scanned[i]).error)
                  && |r.written| == CountGenerating(scanned[..i])
                  && forall j :: 0 <= j < i && Generates(scanned[j]) ==>
                       && CountGenerating(scanned[..j]) < |r.written|
                       && BuildModel(scanned[j]).Success?
                       && r.written[CountGenerating(scanned[..j])] == AnnotationFile(BuildModel(scanned[j]).value, annotationDir)
  {
    var i :| StopsAt(scanned, i, ScanClasses(scanned));
  }

  /** Every annotation file `main` writes, also before an exception, is the
      annotation path of a class it generates for. */
  lemma MainPathsGenerated(scanned: seq<ScannedClass>, annotationDir: string, producerDir: string)
    ensures var r := Main(scanned, annotationDir, producerDir);
      forall i :: 0 <= i < |ScanClasses(scanned).models| ==> GeneratedPath(scanned, annotationDir, r.written[i].path)
  {
    ScanFilesGenerated(scanned, annotationDir);
  }

  /** Appending one element keeps the elements before it. */
  lemma AppendOne<T>(a: seq<T>, x: T)
    ensures |a + [x]| == |a| + 1 && (a + [x])[|a|] == x
    ensures forall i :: 0 <= i < |a| ==> (a + [x])[i] == a[i]
  {
  }

  function ProducerFile(models: seq<ComponentModel>, dir: string): (r: SourceFile)
    ensures r.path == dir + ProducerFileName && Text(r.content) == ToProducer(models)
  {
    SourceFile(dir + ProducerFileName, ProducersOf(models))
  }

  /** A run without an exception writes, for every class it generates for,
      that class's annotation file at the position counting the generated
      classes before it. */
  lemma MainFilePerClass(scanned: seq<ScannedClass>, annotationDir: string, producerDir: string)
    requires Main(scanned, annotationDir, producerDir).thrown.None?
    ensures forall i :: 0 <= i < |scanned| && Generates(scanned[i]) ==>
      && BuildModel(scanned[i]).Success?
      && CountGenerating(scanned[..i]) < |Main(scanned, annotationDir, producerDir).written| - 1
      && Main(scanned, annotationDir, producerDir).written[CountGenerating(scanned[..i])]
         == AnnotationFile(BuildModel(scanned[i]).value, annotationDir)
  {
    ScanModelsInOrder(scanned);
  }
}

=== FILE: java_text.dfy ===
/** Java `String` facts the model relies on: the ordering `String.compareTo`
    induces (used by every `Collections.sort` in the generator) and the two
    scanning primitives the readers of generated source are built from. */
module JavaText {
  import opened Wrappers

  /** `a.compareTo(b) <= 0`: lexicographic by character, a proper prefix
      ordered before its extensions. */
  predicate StrLe(a: string, b: string)
  {
    |a| == 0 || (|b| > 0 && (a[0] < b[0] || (a[0] == b[0] && StrLe(a[1..], b[1..]))))
  }

  lemma {:induction false} StrLeTotal(a: string, b: string)
    ensures StrLe(a, b) || StrLe(b, a)
  {
    if |a| > 0 && |b| > 0 && a[0] == b[0] {
      StrLeTotal(a[1..], b[1..]);
    }
  }

  lemma {:induction false} StrLeTransitive(a: string, b: string, c: string)
    requires StrLe(a, b) && StrLe(b, c)
    ensures StrLe(a, c)
  {
    if |a| > 0 && a[0] == b[0] && b[0] == c[0] {
      StrLeTransitive(a[1..], b[1..], c[1..]);
    }
  }

  lemma {:induction false} StrLeAntisymmetric(a: string, b: string)
    requires StrLe(a, b) && StrLe(b, a)
    ensures a == b
  {
    if |a| > 0 {
      StrLeAntisymmetric(a[1..], b[1..]);
      assert a == [a[0]] + a[1..];
      assert b == [b[0]] + b[1..];
    }
  }

  /** Strings that agree on their first `k` characters compare as their
      remainders do. */
  lemma {:induction false} StrLeSkipCommon(a: string, b: string, k: nat)
    requires k <= |a| && k <= |b| && a[..k] == b[..k]
    ensures StrLe(a, b) <==> StrLe(a[k..], b[k..])
  {
    if k > 0 {
      assert a[0] == a[..k][0] == b[..k][0] == b[0];
      assert a[1..][..k - 1] == a[1..k] == a[..k][1..];
      assert b[1..][..k - 1] == b[1..k] == b[..k][1..];
      StrLeSkipCommon(a[1..], b[1..], k - 1);
      assert a[1..][k - 1..] == a[k..];
      assert b[1..][k - 1..] == b[k..];
    }
  }

  /** `String.compareTo` as the JDK computes it: the difference of the first
      differing characters, or else the difference of the lengths. */
  method CompareTo(a: string, b: string) returns (r: int)
    ensures r <= 0 <==> StrLe(a, b)
    ensures r == 0 <==> a == b
  {
    var lim := if |a| < |b| then |a| else |b|;
    var k := 0;
    while k < lim
      invariant 0 <= k <= lim
      invariant a[..k] == b[..k]
    {
      if a[k] != b[k] {
        StrLeSkipCommon(a, b, k);
        r := a[k] as int - b[k] as int;
        assert a != b by {
          assert a[k] != b[k];
        }
        return;
      }
      assert a[..k + 1] == a[..k] + [a[k]];
      assert b[..k + 1] == b[..k] + [b[k]];
      k := k + 1;
    }
    StrLeSkipCommon(a, b, k);
    r := |a| - |b|;
    if r == 0 {
      assert a == a[..k] && b == b[..k];
    }
  }

  /** Position of the first `c` in `s`, or `|s|` when there is none. */
  function IndexOf(s: string, c: char): (i: nat)
    ensures i <= |s|
    ensures forall k :: 0 <= k < i ==> s[k] != c
    ensures i < |s| ==> s[i] == c
  {
    if |s| == 0 then 0
    else if s[0] == c then 0
    else 1 + IndexOf(s[1..], c)
  }

  lemma IndexOfSeparator(a: string, b: string, c: char)
    requires c !in a
    requires |b| > 0 && b[0] == c
    ensures IndexOf(a + b, c) == |a|
  {
    assert (a + b)[|a|] == c;
  }

  /** Cutting `a + [c] + b` at its first `c` gives back `a` and `b`. */
  lemma CutAt(a: string, c: char, b: string)
    requires c !in a
    ensures IndexOf(a + [c] + b, c) == |a|
    ensures (a + [c] + b)[..|a|] == a
    ensures (a + [c] + b)[|a| + 1..] == b
    ensures (a + [c] + b)[|a|..] == [c] + b
  {
    IndexOfSeparator(a, [c] + b, c);
    assert a + [c] + b == a + ([c] + b);
  }

  /** The rest of `s` after the literal prefix `p`, if `s` starts with it. */
  function StripPrefix(s: string, p: string): (r: Option<string>)
    ensures r.Some? <==> p <= s
    ensures r.Some? ==> s == p + r.value
  {
    if p <= s then Some(s[|p|..]) else None
  }

  lemma StripPrefixConcat(p: string, t: string)
    ensures StripPrefix(p + t, p) == Some(t)
  {
    assert p <= p + t;
    assert (p + t)[|p|..] == t;
  }
}

=== FILE: label_value_key.dfy ===
/** The label value key and the annotations the generator writes for `Text`
    components. The generator declares the key of a `Text` component as the
    member `text`, but `CustomPropertyLabelValueKey` reads the attribute
    `valueKey`, which no generated annotation has. The ignore check therefore
    never holds for a generated annotation: the text is always replaced, by
    the bundle's text for the null key or by the fixed message. The rest of
    the model reads the key from `text`. */
module LabelValueKeyFinding {
  import opened Wrappers
  import opened Components
  import opened Generator
  import opened ComponentConfigurator

  function AttributeNames(a: Annotation): set<string>
  {
    set at | at in a.attributes :: at.name
  }

  lemma NamedAttribute(a: Annotation, n: string)
    ensures Get(a, n).Some? <==> n in AttributeNames(a)
  {
    if n in AttributeNames(a) {
      var at :| at in a.attributes && at.name == n;
      var i :| 0 <= i < |a.attributes| && a.attributes[i] == at;
    }
  }

  /** An instance of the annotation the generator writes for a `Text`
      component has a `text` attribute but no `valueKey` attribute, unless
      the component class itself has a writable `valueKey` bean property. */
  lemma GeneratedTextAnnotation(s: ScannedClass, a: Annotation)
    requires BuildModel(s).Success?
    requires s.componentClass.isText
    requires "valueKey" !in SelectedNames(s.beanProperties)
    requires AttributeNames(a) == MemberNames(BuildModel(s).value.properties)
    ensures Get(a, "valueKey").None?
    ensures Get(a, "text").Some?
  {
    var c := s.componentClass;
    ModelMemberNames(s);
    CustomNamesOfText(c);
    assert "valueKey" !in MemberNames(BuildModel(s).value.properties);
    NamedAttribute(a, "valueKey");
    NamedAttribute(a, "text");
  }

  /** The custom members of a `Text` component include `text` and not
      `valueKey`. */
  lemma CustomNamesOfText(c: ComponentClass)
    requires c.isText
    ensures "text" in TextCustomNames(c)
    ensures "valueKey" !in HtmlCustomNames(c) + AlwaysCustomNames + TextCustomNames(c)
  {
    assert "valueKey" !in AlwaysCustomNames;
    assert "valueKey" !in HtmlCustomNames(c);
  }

  /** As written, the label value key of such an annotation always sets the
      text, whatever the `text` attribute says, the ignore marker included. */
  lemma AsWrittenIgnoresText(s: ScannedClass, a: Annotation, k: Kind, bundle: Option<Bundle>)
    requires BuildModel(s).Success?
    requires s.componentClass.isText && k.isText
    requires "valueKey" !in SelectedNames(s.beanProperties)
    requires AttributeNames(a) == MemberNames(BuildModel(s).value.properties)
    ensures ApplyLabelValueKeyAsWritten(k, a, bundle).calls == [SetText(BundleText(bundle, None))]
  {
    GeneratedTextAnnotation(s, a);
  }

  /** A `Text` component whose key is left at the ignore marker: as written
      its text becomes the fixed message, where the ignore check should have
      left it alone; reading the key from `text` leaves it alone. */
  lemma IgnoredTextCounterexample()
    ensures var k := Kind("com.vaadin.flow.component.Text", false, false, false, true, {"text"});
      var a := Annotation("TextProperties",
        [Attribute("text", VStr(IgnoredString)), Attribute("localized", VBool(false))]);
      ApplyLabelValueKeyAsWritten(k, a, None) == Effect([SetText(Some(NoBundleMessage))], None, None)
      && ApplyLabelValueKey(k, a, None) == NoEffect
  {
    var a := Annotation("TextProperties",
      [Attribute("text", VStr(IgnoredString)), Attribute("localized", VBool(false))]);
    assert Get(a, "valueKey") == None;
    assert Get(a, "text") == Some(VStr(IgnoredString));
  }

  /** With a bundle, a key given in `text` is looked up when it is read from
      `text`; as written the null key is looked up instead. */
  lemma BundleKeyCounterexample()
    ensures var k := Kind("com.vaadin.flow.component.Text", false, false, false, true, {"text"});
      var a := Annotation("TextProperties",
        [Attribute("text", VStr("greeting")), Attribute("localized", VBool(false))]);
      var b := map["greeting" := "Hello"];
      ApplyLabelValueKeyAsWritten(k, a, Some(b)) == Effect([SetText(None)], None, None)
      && ApplyLabelValueKey(k, a, Some(b)) == Effect([SetText(Some("Hello"))], None, None)
  {
    var a := Annotation("TextProperties",
      [Attribute("text", VStr("greeting")), Attribute("localized", VBool(false))]);
    assert Get(a, "valueKey") == None;
    assert Get(a, "text") == Some(VStr("greeting"));
  }

  /** The generator gives `localized` the default `true`. With that default
      and a bundle available, the label value key of a `Text` component that
      is not an `HtmlComponent` ends in a failed cast when it registers the
      component with the localizer, so `getComponent` throws. */
  lemma AsWrittenLocalizedTextThrows(s: ScannedClass, a: Annotation, k: Kind, bundle: Option<Bundle>)
    requires BuildModel(s).Success?
    requires s.componentClass.isText && k.isText && !k.isHtmlComponent
    requires "valueKey" !in SelectedNames(s.beanProperties)
    requires AttributeNames(a) == MemberNames(BuildModel(s).value.properties)
    requires Get(a, "localized") == Some(VBool(true)) && bundle.Some?
    ensures ApplyLabelValueKeyAsWritten(k, a, bundle).thrown == Some(ClassCast)
  {
    GeneratedTextAnnotation(s, a);
  }
}

=== FILE: localizer.dfy ===
/** The caption registry of `Localizer.java`: components registered with the
    key of their caption, whose titles are set again from the text bundle
    whenever the bundle announces an update. */
module Localizer {
  import opened Wrappers
  import opened Components

  /** `localizedCaptions`: the registered components (by identity) and the
      caption key each was registered with. */
  datatype CaptionRegistry = CaptionRegistry(captions: map<ComponentId, JString>)

  const EmptyRegistry := CaptionRegistry(map[])

  /** `addLocalizedCaption`: `HashMap.put` of the component and its key. */
  function AddLocalizedCaption(l: CaptionRegistry, id: ComponentId, key: JString): (r: CaptionRegistry)
    ensures r.captions.Keys == l.captions.Keys + {id}
    ensures r.captions[id] == key
    ensures forall other :: other in l.captions && other != id ==> r.captions[other] == l.captions[other]
  {
    CaptionRegistry(l.captions[id := key])
  }

  /** `updateCaption`: each registered component gets one more `setTitle`,
      with the bundle's text for its key, or the fixed message when no bundle
      can be resolved. Components outside the registry are not touched. */
  function UpdateCaption(l: CaptionRegistry, components: map<ComponentId, Component>, bundle: Option<Bundle>)
    : (r: map<ComponentId, Component>)
    ensures r.Keys == components.Keys
    ensures forall id :: id in components && id in l.captions ==>
      r[id].kind == components[id].kind
      && r[id].calls == components[id].calls + [SetTitle(BundleText(bundle, l.captions[id]))]
    ensures forall id :: id in components && id !in l.captions ==> r[id] == components[id]
  {
    map id | id in components ::
      if id in l.captions then Then(components[id], [SetTitle(BundleText(bundle, l.captions[id]))])
      else components[id]
  }

  /** After an update every registered component shows the text of its key,
      and an unregistered component shows what it showed before. */
  lemma UpdateCaptionTitles(l: CaptionRegistry, components: map<ComponentId, Component>, bundle: Option<Bundle>)
    ensures forall id :: id in components && id in l.captions ==>
      Title(UpdateCaption(l, components, bundle)[id]) == Some(BundleText(bundle, l.captions[id]))
    ensures forall id :: id in components && id !in l.captions ==>
      Title(UpdateCaption(l, components, bundle)[id]) == Title(components[id])
  {
    var r := UpdateCaption(l, components, bundle);
    forall id | id in components && id in l.captions
      ensures Title(r[id]) == Some(BundleText(bundle, l.captions[id]))
    {
      TitleAfterSetTitle(components[id], BundleText(bundle, l.captions[id]));
    }
  }

  /** Without a bundle every registered component shows the fixed message. */
  lemma UpdateWithoutBundle(l: CaptionRegistry, components: map<ComponentId, Component>)
    ensures forall id :: id in components && id in l.captions ==>
      Title(UpdateCaption(l, components, None)[id]) == Some(Some(NoBundleMessage))
  {
    UpdateCaptionTitles(l, components, None);
  }

  /** A second update with the same bundle shows the same titles as the first. */
  lemma UpdateCaptionIdempotent(l: CaptionRegistry, components: map<ComponentId, Component>, bundle: Option<Bundle>)
    ensures var once := UpdateCaption(l, components, bundle);
      var twice := UpdateCaption(l, once, bundle);
      twice.Keys == once.Keys && forall id :: id in once ==> Title(twice[id]) == Title(once[id])
  {
    var once := UpdateCaption(l, components, bundle);
    UpdateCaptionTitles(l, components, bundle);
    UpdateCaptionTitles(l, once, bundle);
  }

  /** Registering a component and then updating shows the text of the key it
      was registered with last, whatever it was registered with before. */
  lemma AddThenUpdate(l: CaptionRegistry, components: map<ComponentId, Component>, id: ComponentId,
                      first: JString, key: JString, bundle: Option<Bundle>)
    requires id in components
    ensures var l2 := AddLocalizedCaption(AddLocalizedCaption(l, id, first), id, key);
      Title(UpdateCaption(l2, components, bundle)[id]) == Some(BundleText(bundle, key))
  {
    var l2 := AddLocalizedCaption(AddLocalizedCaption(l, id, first), id, key);
    UpdateCaptionTitles(l2, components, bundle);
  }
}

=== FILE: sorting.dfy ===
/** `Collections.sort` with a comparator that compares one string key of each
    element, as both generator serialisers use it. The result is modelled
    functionally: a stable insertion sort, whose output is the sorted
    permutation of its input. */
module Sorting {
  import opened JavaText

  ghost predicate SortedBy<T>(s: seq<T>, key: T -> string)
  {
    forall i, j :: 0 <= i < j < |s| ==> StrLe(key(s[i]), key(s[j]))
  }

  lemma PrependSorted<T>(x: T, s: seq<T>, key: T -> string)
    requires SortedBy(s, key)
    requires |s| > 0 ==> StrLe(key(x), key(s[0]))
    ensures SortedBy([x] + s, key)
  {
    forall j | 0 < j < |s| + 1
      ensures StrLe(key(x), key(([x] + s)[j]))
    {
      if j > 1 {
        StrLeTransitive(key(x), key(s[0]), key(s[j - 1]));
      }
    }
  }

  lemma PrependHeadSorted<T>(h: T, rest: seq<T>, tail: seq<T>, x: T, key: T -> string)
    requires SortedBy(rest, key)
    requires multiset(rest) == multiset(tail) + multiset{x}
    requires StrLe(key(h), key(x))
    requires forall k :: 0 <= k < |tail| ==> StrLe(key(h), key(tail[k]))
    ensures SortedBy([h] + rest, key)
  {
    forall j | 0 <= j < |rest|
      ensures StrLe(key(h), key(rest[j]))
    {
      assert rest[j] in multiset(rest);
      if rest[j] != x {
        assert rest[j] in multiset(tail);
        var k :| 0 <= k < |tail| && tail[k] == rest[j];
      }
    }
  }

  /** Puts `x` in front of the first element whose key is not smaller. */
  function InsertBy<T>(x: T, s: seq<T>, key: T -> string): (r: seq<T>)
    requires SortedBy(s, key)
    ensures SortedBy(r, key)
    ensures multiset(r) == multiset(s) + multiset{x}
  {
    if |s| == 0 then [x]
    else if StrLe(key(x), key(s[0])) then
      PrependSorted(x, s, key);
      [x] + s
    else
      var rest := InsertBy(x, s[1..], key);
      StrLeTotal(key(x), key(s[0]));
      assert s == [s[0]] + s[1..];
      PrependHeadSorted(s[0], rest, s[1..], x, key);
      [s[0]] + rest
  }

  /** The sorted permutation of `s` with respect to `key`. */
  function SortBy<T>(s: seq<T>, key: T -> string): (r: seq<T>)
    ensures SortedBy(r, key)
    ensures multiset(r) == multiset(s)
  {
    if |s| == 0 then []
    else
      assert s == [s[0]] + s[1..];
      InsertBy(s[0], SortBy(s[1..], key), key)
  }

  /** The elements of `s` whose key is `k`, in their order in `s`. */
  function WithKey<T>(s: seq<T>, key: T -> string, k: string): seq<T>
  {
    if |s| == 0 then [] else (if key(s[0]) == k then [s[0]] else []) + WithKey(s[1..], key, k)
  }

  lemma {:induction false} WithKeyConcat<T>(a: seq<T>, b: seq<T>, key: T -> string, k: string)
    ensures WithKey(a + b, key, k) == WithKey(a, key, k) + WithKey(b, key, k)
  {
    if |a| > 0 {
      assert (a + b)[1..] == a[1..] + b;
      WithKeyConcat(a[1..], b, key, k);
    } else {
      assert a + b == b;
    }
  }

  /** Inserting `x` passes only elements with a smaller key, so among the
      elements with its key `x` comes first. */
  lemma {:induction false} InsertByStable<T>(x: T, s: seq<T>, key: T -> string, k: string)
    requires SortedBy(s, key)
    ensures WithKey(InsertBy(x, s, key), key, k) == (if key(x) == k then [x] else []) + WithKey(s, key, k)
  {
    if |s| > 0 {
      assert s == [s[0]] + s[1..];
      assert [x][1..] == [] && [s[0]][1..] == [];
      if StrLe(key(x), key(s[0])) {
        WithKeyConcat([x], s, key, k);
      } else {
        StrLeTotal(key(x), key(x));
        assert SortedBy(s[1..], key);
        InsertByStable(x, s[1..], key, k);
        WithKeyConcat([s[0]], InsertBy(x, s[1..], key), key, k);
        WithKeyConcat([s[0]], s[1..], key, k);
      }
    }
  }

  /** `Collections.sort` is stable: for every key, the elements with that
      key keep the order they had in the input. */
  lemma {:induction false} SortByStable<T>(s: seq<T>, key: T -> string, k: string)
    ensures WithKey(SortBy(s, key), key, k) == WithKey(s, key, k)
  {
    if |s| > 0 {
      var t := SortBy(s[1..], key);
      assert SortBy(s, key) == InsertBy(s[0], t, key);
      SortByStable(s[1..], key, k);
      InsertByStable(s[0], t, key, k);
      assert WithKey(s, key, k) == (if key(s[0]) == k then [s[0]] else []) + WithKey(s[1..], key, k);
    }
  }

  /** A sorted arrangement is determined by its elements once keys are
      distinct: any other order with the same elements and the same
      guarantee is the same sequence. */
  lemma {:induction false} SortedUnique<T>(a: seq<T>, b: seq<T>, key: T -> string)
    requires SortedBy(a, key) && SortedBy(b, key)
    requires multiset(a) == multiset(b)
    requires forall i, j :: 0 <= i < j < |a| ==> key(a[i]) != key(a[j])
    ensures a == b
  {
    assert |a| == |multiset(a)| == |multiset(b)| == |b|;
    if |a| > 0 {
      SameHead(a, b, key);
      SameTails(a, b, key);
      SortedUnique(a[1..], b[1..], key);
      assert a == [a[0]] + a[1..];
      assert b == [b[0]] + b[1..];
    }
  }

  /** Behind an equal head, the tails meet the requirements again. */
  lemma SameTails<T>(a: seq<T>, b: seq<T>, key: T -> string)
    requires |a| > 0 && |b| > 0 && a[0] == b[0]
    requires SortedBy(a, key) && SortedBy(b, key)
    requires multiset(a) == multiset(b)
    requires forall i, j :: 0 <= i < j < |a| ==> key(a[i]) != key(a[j])
    ensures SortedBy(a[1..], key) && SortedBy(b[1..], key)
    ensures multiset(a[1..]) == multiset(b[1..])
    ensures forall i, j :: 0 <= i < j < |a[1..]| ==> key(a[1..][i]) != key(a[1..][j])
  {
    assert a == [a[0]] + a[1..];
    assert b == [b[0]] + b[1..];
    assert multiset(a[1..]) == multiset(a) - multiset{a[0]};
    assert multiset(b[1..]) == multiset(b) - multiset{b[0]};
  }

  lemma SameHead<T>(a: seq<T>, b: seq<T>, key: T -> string)
    requires |a| > 0 && |b| > 0
    requires SortedBy(a, key) && SortedBy(b, key)
    requires multiset(a) == multiset(b)
    requires forall i, j :: 0 <= i < j < |a| ==> key(a[i]) != key(a[j])
    ensures a[0] == b[0]
  {
    assert a[0] in multiset(b);
    assert b[0] in multiset(a);
    var i :| 0 <= i < |b| && b[i] == a[0];
    var j :| 0 <= j < |a| && a[j] == b[0];
    if i > 0 && j > 0 {
      StrLeAntisymmetric(key(a[0]), key(a[j]));
    }
  }
}

=== FILE: wrappers.dfy ===
/** Failure-compatible wrappers used across the model: `Option` stands for a
    Java reference that may be null, `Result` for a computation that may throw. */
module Wrappers {

  datatype Option<+T> = None | Some(value: T) {

    predicate IsFailure() {
      None?
    }

    function PropagateFailure<U>(): Option<U>
      requires None?
    {
      None
    }

    function Extract(): T
      requires Some?
    {
      value
    }
  }

  datatype Result<+R, +E> = Success(value: R) | Failure(error: E) {

    predicate IsFailure() {
      Failure?
    }

    function PropagateFailure<U>(): Result<U, E>
      requires Failure?
    {
      Failure(error)
    }

    function Extract(): R
      requires Success?
    {
      value
    }
  }
}
